=== FILE: README.md ===
# Hilton hotel booking engine — a Dafny model

This project models the booking-state engine of the hotel reservation program in `main.cpp`.
That engine is the class `Hotel` together with the room catalogue the `HiltonHotel` constructor
seeds.

A `Hotel` keeps several structures:

- four room types in a `std::map` keyed by name;
- a running revenue total;
- the parallel vectors `people` and `roomsnums`;
- the detailed records saved to and loaded from a per-date text file;
- the `reservations[date][room]` ledger;
- the `guestToRooms` hash table;
- the `guestHistory` list;
- a binary search tree of occupied rooms;
- the undo stack `bookingHistory`.

Five operations change that state: `bookRoom`, `reserveRoom`, `undoLastBooking`,
`resetStateForNewDate` and `loadFromFile`. A sixth, `saveToFile`, produces a file from it.

How the model is organised:

- **The whole state as one value.** The module `Booking` defines the state as a value, `State`.
  It gives each operation as a function from the state before to the state after:
  - `Booked` for `bookRoom`;
  - `Reserved` for `reserveRoom`;
  - `Undone` for `undoLastBooking`;
  - `Reset` for `resetStateForNewDate`.

  The module `Persistence` does the same for files. `Saved` gives the lines `saveToFile` writes.
  `Loaded` gives the state `loadFromFile` leaves.
- **The object.** The class `HotelEngine.Hotel` holds the same fields as mutable state.
  - Each method is proved to leave exactly the state its function describes.
  - The constructor is proved to establish the class invariant.
  - `ResetStateForNewDate`, `ReserveRoom`, `UndoLastBooking` and `LoadFromFile` are proved to
    keep it.
  - `BookRoom`, `RestoreRecord`, `ReplayLines` and `Store` are steps inside those operations and
    do not by themselves keep the invariant. `bookRoom`, for example, pushes no undo entry. The
    invariant is restored by their callers, as `Invariant.BookedValid`,
    `Persistence.RestoreValid` and `Persistence.LoadedValid` show.
  - The loops of the source (the type searches, the last-match searches of the undo, the
    seeding loops, the collect loop of the save, the read loop of the load) are methods with
    loop invariants. Each is proved against the function that specifies it.
- **The invariant** (`Invariant.Valid`) says every index is derived from the undo stack:
  - `people`, `roomsnums` and `guestHistory` list the stack's guests and rooms;
  - the ledger, the guest table and the tree hold exactly the stack's bookings;
  - no room is booked twice;
  - each room type's free list and guest map partition that type's rooms.

  Every operation of the menu keeps it: reset, reserve, undo and load.
- **The main properties.**
  - A reservation followed by an undo restores the state with two exceptions
    (`Properties.ReserveUndoRoundTrip`):
    - the freed room moves to the back of its type's free list;
    - the revenue comes back floored at 0, because the undo floors it. A negative revenue is
      reachable: a loaded file can start with a negative total.
  - When the revenue was not negative, undo restores the state up to the order of the free lists
    (`Properties.ReserveUndoSame`).
  - Two reservations are undone in last-in-first-out order, up to the order of the free lists
    (`Properties.UndoIsLastInFirstOut`). This holds when the revenue and the first booking's cost
    are not negative.
  - A saved file loads back to the same detailed records and to the saved revenue
    (`Persistence.SaveLoadRoundTrip`). The model proves this for records with no comma or line
    break in their text fields and with 32-bit room, night and hour numbers.
    - In the program it also needs every cost, and the date's revenue total, to have at most six
      significant digits, for example to be below 1,000,000. `<<` writes doubles with six
      significant digits: a cost of 1,236,015 is written as "1.23602e+06" and read back as
      1,236,020. The model writes every digit.
    - Both seeded "Standard …" type names contain a comma, so records of those types do not come
      back unchanged (`Persistence.CommaInTypeName`).
  - Each lookup (`findGuestReservations`, `showReservationsForDate`,
    `displayOccupiedRoomsInOrder`) reports exactly what the undo stack implies.

Modelling choices:

- **Money.** Prices and costs are whole dollars (`int`): every price the catalogue seeds is a
  whole number.
  - `std::stod` is modelled as reading the leading optionally-signed integer after leading
    blanks.
  - `std::stoi` is the same read, failing outside the 32-bit range.
- **Type order.** `roomTypes` is a sequence in the `std::map`'s key order: lexicographic by
  character code. The seeded order is proved to be Deluxe Suite, Penthouse, Standard Room
  Scenic, Standard Rooms Courtyard. This is the order a menu option number indexes.
- **Files.** A file is its sequence of lines. A file that cannot be opened is `None`.
- **Commas in type names.** A type name containing a comma is written to the file unescaped. The
  line then does not parse back to the same record. `Persistence.CommaInTypeName` proves this
  for any type name holding one comma, as both seeded "Standard …" names do.

## Model

| member | source | states |
|---|---|---|
| OccupancyTree.Insert | main.cpp:106-119 | inserting a room adds exactly that key and keeps the search-tree order |
| OccupancyTree.FindMinNode | main.cpp:121-126 | the node reached has no left child and holds MinKey, the successor key Remove uses; in a search tree that is the smallest key |
| OccupancyTree.Remove | main.cpp:128-157 | removing a room from a search tree deletes exactly that key (in-order successor for two children) and keeps the order |
| OccupancyTree.InOrder | main.cpp:159-164 | the in-order walk lists exactly the tree's keys, strictly ascending for a search tree |
| OccupancyTree.InsertPresent | main.cpp:106-119 | inserting a key already present leaves the tree unchanged |
| OccupancyTree.RemoveAbsent | main.cpp:128-157 | removing an absent key leaves the tree unchanged |
| OccupancyTree.RemoveInsertFresh | main.cpp:106-157 | removing a freshly inserted key restores the tree exactly |
| Text.Split | main.cpp:93-103 | the getline split loop yields the pieces between delimiters, dropping only a trailing empty piece |
| Text.PiecesOfJoin | main.cpp:93-103 | splitting comma-joined fields without commas (last one non-empty) gives the fields back |
| Text.StoiOfIntToString | main.cpp:516 | stoi reads back any 32-bit integer written in decimal |
| Text.StoiOfDigits | main.cpp:516 | stoi reads a string of digits as its value when that fits in 32 bits, and fails otherwise |
| Text.StodOfIntToString | main.cpp:480 | stod reads back any integer written in decimal |
| HotelEngine.Find | main.cpp:208-210 | the std::find loop returns the index of the first occurrence, the length when absent |
| HotelEngine.FindFreeType | main.cpp:206-211 | bookRoom's scan picks the first type in key order whose free list holds the room |
| HotelEngine.FindOwningType | main.cpp:627-636 | undoLastBooking's scan picks the first type owning the room, the type count when none does |
| HotelEngine.LastPairIndex | main.cpp:669-675 | the backward scan finds the last (guest, room) pair of people/roomsnums, -1 when none |
| HotelEngine.LastStayIndex | main.cpp:678-685 | the backward scan finds the last detailed record with that guest, room and date, -1 when none |
| HotelEngine.LastGuestIndex | main.cpp:688-694 | the backward scan finds the last occurrence of the guest in the history, -1 when none |
| HotelEngine.RemoveRoom | main.cpp:700 | erase-remove keeps every other room of the vector in order and drops all copies of the room |
| HotelEngine.ReleaseRoom | main.cpp:648-657 | the room leaves the guest map and is appended to the free list (counted) only when absent from it |
| HotelEngine.UnassignRoom | main.cpp:696-704 | the guest's room list loses the room and the guest's entry goes when the list becomes empty |
| HotelEngine.CollectForDate | main.cpp:414-422 | the collect loop keeps exactly the records of the date, in order, and sums their costs |
| HotelEngine.WriteRecords | main.cpp:443-452 | the write loop produces one comma-joined line of the eight fields per record |
| HotelEngine.ReadsAsHeader | main.cpp:495-497 | the second line is taken as a header exactly when it splits into eight fields starting with GuestName |
| HotelEngine.ReadRecord | main.cpp:508-558 | one line read yields the record the file format defines, or nothing for an empty, short or unreadable line |
| HotelEngine.SeedType | main.cpp:797-802 | a seeding loop lists the rooms lo..hi in ascending order as both the free list and the full list |
| HotelEngine.ResetOn | main.cpp:174-200 | the field values after the reset are those of Booking.Reset |
| HotelEngine.BookOn | main.cpp:203-233 | reports success exactly when some free list holds the room; the state is that of Booking.Booked |
| HotelEngine.ReserveOn | main.cpp:318-378 | the field values after the reservation are those of Booking.Reserved |
| HotelEngine.UndoOn | main.cpp:617-712 | the field values after the undo are those of Booking.Undone |
| HotelEngine.Hotel.constructor | main.cpp:795-826 | the constructed hotel holds the seeded catalogue in key order with every other index empty, and satisfies the invariant |
| HotelEngine.Hotel.ResetStateForNewDate | main.cpp:174-200 | the new state is the reset of the old one and keeps the invariant |
| HotelEngine.Hotel.BookRoom | main.cpp:203-233 | success exactly when the room is free in some type; the new state is Booked of the old (the stack is left to the caller) |
| HotelEngine.Hotel.ReserveRoom | main.cpp:318-378 | the new state is Reserved of the old and keeps the invariant |
| HotelEngine.Hotel.UndoLastBooking | main.cpp:617-712 | the new state is Undone of the old and keeps the invariant |
| HotelEngine.Hotel.SaveToFile | main.cpp:412-456 | the lines written are Saved of the state; nothing is written when no record has the date |
| HotelEngine.Hotel.LoadFromFile | main.cpp:459-584 | the new state is Loaded of the old state and the file, and keeps the invariant |
| HotelEngine.Hotel.ReplayLines | main.cpp:507-579 | reading the remaining lines replays each parsed record in order |
| HotelEngine.Hotel.RestoreRecord | main.cpp:528-543 | the record is appended, then rebooked with its undo entry pushed when its room is free |
| Properties.BookOutcome | main.cpp:203-233 | booking succeeds iff the room is free in some type; success moves the room from that type's free list to its guests and to the tree, ledger and guest table, appends the guest and room to the history lists and touches no other type; failure changes nothing; neither touches the revenue, the undo stack or the detailed records |
| Properties.ReserveOutcome | main.cpp:318-378 | an invalid option or a full type changes nothing; otherwise the front free room is booked, the revenue grows by price × nights, and one action and one record are appended |
| Properties.ReserveRevenue | main.cpp:340-343 | a reservation adds exactly price × nights to the revenue (the revenue clause of ReserveOutcome is proved from it) |
| Properties.UndoOutcome | main.cpp:617-712 | an empty stack changes nothing; otherwise the top action is popped, the revenue drops by its cost floored at 0, and its room is freed from its type, the tree, the ledger and the guest table; people, roomsnums and guestHistory become those of the remaining bookings |
| Properties.UndoDropsLastStay | main.cpp:677-685 | undo erases exactly one detailed record, the newest one for the popped stay (guest, room, date), keeping the rest in order; with none matching the records are unchanged |
| Properties.ReserveUndoRoundTrip | main.cpp:318-378 | undo after a reservation gives back the earlier state with the room rotated to the back of its free list and the revenue floored at 0 |
| Properties.ReserveUndoSame | main.cpp:318-712 | undo after a reservation gives back the earlier state up to the order of the free lists, when the revenue is not negative |
| Properties.UndoIsLastInFirstOut | main.cpp:617-624 | two reservations are undone newest first, each undo giving back the state before its reservation up to the order of the free lists, when the revenue and the first booking's cost are not negative |
| Invariant.TypeCounts | main.cpp:25-30 | under the invariant each type's free rooms and occupied rooms add up to its total |
| Invariant.ResetValid | main.cpp:174-200 | the reset state satisfies the invariant and keeps the catalogue |
| Invariant.BookedValid | main.cpp:203-233 | a booking with its undo entry pushed keeps the invariant and the catalogue |
| Invariant.ReservedValid | main.cpp:318-378 | a reservation keeps the invariant and the catalogue |
| Invariant.UndoneValid | main.cpp:617-712 | an undo keeps the invariant and the catalogue |
| Lookups.FindGuestReservationsMeaning | main.cpp:602-614 | the lookup fails exactly for a guest with no booking on the stack, else lists the guest's rooms oldest first |
| Lookups.ReservationsOnDateMeaning | main.cpp:587-599 | a date is found exactly when some booking on the stack is for it, and then shows exactly those bookings' rooms and guests |
| Lookups.OccupiedRoomsMeaning | main.cpp:715-723 | the in-order listing shows each booked room once, ascending |
| Persistence.OnDateMembers | main.cpp:417-421 | the collected records are exactly those of the date |
| Persistence.SavedNone | main.cpp:424-427 | nothing is saved exactly when no record has the date |
| Persistence.RecordLineRoundTrip | main.cpp:444-451 | a saved record line, text fields free of commas and line breaks and 32-bit integers, parses back to the same record |
| Persistence.SaveLoadRoundTrip | main.cpp:412-584 | loading a saved file gives exactly the date's records and the revenue total written, for records without commas or line breaks in text fields and with 32-bit numbers; amounts are written in full (the source's six-significant-digit output is not modelled) |
| Persistence.LegacyLine | main.cpp:545-566 | an old "guest,room" line yields a free one-night record at 15:00 on the file's date |
| Persistence.RevenueLineForms | main.cpp:476-491 | the revenue line is read in its labelled, dollar and bare forms |
| Persistence.HeaderRecognised | main.cpp:438-440 | the header line written is recognised as a header on load |
| Persistence.LoadedNothing | main.cpp:461-474 | a missing or empty file leaves just the reset state |
| Persistence.LoadedValid | main.cpp:459-491 | a load keeps the invariant, and the revenue is the one read from the first line |
| Persistence.RestoreEffect | main.cpp:528-543 | a restored record is always appended and never touches the revenue; its action is pushed exactly when its room was free |
| Persistence.CommaInTypeName | main.cpp:446 | a type name holding a comma does not survive a save and load, and shifts the fields after it |
| Catalogue.HiltonOptionOrder | main.cpp:795-826 | the seeded types in key order are Deluxe Suite, Penthouse, Standard Room Scenic, Standard Rooms Courtyard |
| Catalogue.HiltonOptionNames | main.cpp:329-331 | options 1 to 4 name Deluxe Suite, Penthouse, Standard Room, Scenic and Standard Rooms, Courtyard, the key order rather than the seeding order |
| Catalogue.PutTypeSorted | main.cpp:797 | assigning into the name-keyed map keeps the types sorted by name, so no name appears twice |
| Catalogue.SortedNamesDistinct | main.cpp:237 | a catalogue kept in key order holds each name once, as the map's keys do |
| Catalogue.HiltonSound | main.cpp:795-826 | the seeded types list their rooms once, count them and share none, and every room is free |
| Catalogue.Initial | main.cpp:795-826 | the freshly constructed hotel satisfies the invariant |
| Catalogue.DeluxeScenario | main.cpp:329-351 | option 1 for two nights in a new hotel books Deluxe Suite room 236 for $700: the tree holds just 236 and 14 suites are left. Undo empties the tree, puts 236 at the back of the free list and restores 15 suites and revenue 0 |

## Left out

- The interactive menu, `main` and all console input and output are not modelled (main.cpp:250-315 and 842-972). Each operation takes its inputs as parameters.
- The display-only members are not modelled: `showAvailableRooms`, `getTotal`, `displayRoomAvailability`, `showGuestHistory` and the printing in `displayOccupiedRoomsInOrder`. The data these show is characterised by the lookup lemmas.
- `getCurrentDate` reads the clock, so the date is a parameter of every operation.
- The room graph (`addGraphEdge`, `bfsFromRoom` and the edges the constructor adds at main.cpp:828-838) is not part of this model. No booking operation reads or writes it.
- File streams are not modelled. A file is its list of lines, and a file that cannot be opened is `None`. The `tellg`/`seekg` rewind is modelled as starting the record lines at line 2.
- Floating-point money is modelled as whole dollars. A fractional price or cost, and `<<`'s six-significant-digit output of large doubles, are not captured.
- Text.Stod: reads only the leading integer part and has no out-of-range failure. A fraction, exponent, `inf` or `nan` is not read as `std::stod` would.
- Heap management is replaced by the value `OccupancyTree.Tree`: `new`/`delete`, `clearTree` and the destructor (main.cpp:166-171, 245-247). Rebuilding the tree after a reset is the empty tree.
- The hotel's `name`, its `totalRooms` field and the `endDate` argument of `reserveRoom` are not modelled: no operation reads them.
- HotelEngine.Hotel.ReserveRoom and the other class methods compute the new field values on a `State` value and then assign the fields. The order in which the source writes individual fields is not modelled.
- HotelEngine.Hotel.constructor builds each room type as a value and then puts it into the catalogue. The source pushes room numbers into the map entry in place.
- Persistence.SaveLoadRoundTrip requires every saved record to be free of commas and line breaks in its text fields, with 32-bit room, night and hour numbers. `Persistence.CommaInTypeName` shows what happens with a comma.
- Persistence.SaveLoadRoundTrip (with Persistence.RecordLine and Persistence.Saved) writes every amount in full. The source writes the costs and the revenue total with `<<` at six significant digits (main.cpp:436, 451). So in the program the round trip also needs every cost and the date's total below 1,000,000, or otherwise of at most six significant digits. A Penthouse stay of 1089 nights costs 1,236,015, is written "1.23602e+06" and is read back as 1,236,020.

=== FILE: booking.dfy ===
/** The booking-state engine of `Hotel`: its records, its whole state as one value, and the
    effect of each state-changing operation (`bookRoom`, `reserveRoom`, `undoLastBooking`,
    `resetStateForNewDate`) as a function from the state before to the state after. The class in
    hotel.dfy performs these operations in place and is proved to agree with these functions. */
module Booking {
  import opened Sequences
  import opened OccupancyTree

  /** `Hotel::RoomType`, together with its key in `roomTypes` (`name`, equal to its description).
      Money is in whole dollars. */
  datatype RoomType = RoomType(
    name: string,
    totalRooms: int,
    availableRooms: int,
    pricePerNight: int,
    roomRange: string,
    availableRoomNumbers: seq<int>,
    guests: map<int, string>,
    allRoomNumbers: seq<int>)

  /** `Hotel::Action`: one entry of the undo stack. */
  datatype Action = Action(
    guestName: string,
    date: string,
    roomNumber: int,
    nights: int,
    pricePerNight: int,
    totalCost: int)

  /** `Hotel::Reservation`: one detailed record, as saved to a file. */
  datatype Reservation = Reservation(
    guestName: string,
    roomNumber: int,
    roomType: string,
    stayDate: string,
    nights: int,
    checkInHour: int,
    pricePerNight: int,
    totalCost: int)

  /** Every field of `Hotel` that the booking operations read or write. `roomTypes` lists the
      entries of the std::map in key order; `bookingHistory` is the undo stack, top last. */
  datatype State = State(
    roomTypes: seq<RoomType>,
    totalRevenue: int,
    people: seq<string>,
    roomsnums: seq<int>,
    reservationsForDay: seq<Reservation>,
    reservations: map<string, map<int, string>>,
    guestToRooms: map<string, seq<int>>,
    guestHistory: seq<string>,
    occupied: Tree,
    bookingHistory: seq<Action>)

  // ---------------------------------------------------------------- map entries created on use

  /** `reservations[date]`, the empty map when the date has no entry. */
  function DayOf(reservations: map<string, map<int, string>>, date: string): map<int, string> {
    if date in reservations then reservations[date] else map[]
  }

  /** `guestToRooms[guest]`, the empty list when the guest has no entry. */
  function RoomsOf(guestToRooms: map<string, seq<int>>, guest: string): seq<int> {
    if guest in guestToRooms then guestToRooms[guest] else []
  }

  /** `reservations[date][room] = guest` (operator[] creates a missing date's map). */
  function Record(reservations: map<string, map<int, string>>, date: string, room: int, guest: string)
    : map<string, map<int, string>>
  {
    reservations[date := DayOf(reservations, date)[room := guest]]
  }

  /** `guestToRooms[guest].push_back(room)` (operator[] creates a missing guest's list). */
  function AddRoom(guestToRooms: map<string, seq<int>>, guest: string, room: int): map<string, seq<int>> {
    guestToRooms[guest := RoomsOf(guestToRooms, guest) + [room]]
  }

  // ---------------------------------------------------------------- bookRoom

  /** The room type `bookRoom` settles on: the first, in key order, whose free list holds `room`;
      |types| when none does. */
  function FreeTypeIndex(types: seq<RoomType>, room: int): (t: nat)
    ensures t <= |types|
    ensures t < |types| ==> room in types[t].availableRoomNumbers
    ensures forall u :: 0 <= u < t ==> room !in types[u].availableRoomNumbers
  {
    if |types| == 0 then 0
    else if room in types[0].availableRoomNumbers then 0
    else 1 + FreeTypeIndex(types[1..], room)
  }

  /** Whether `bookRoom` succeeds for `room`: some type's free list holds it. */
  predicate CanBook(s: State, room: int) {
    FreeTypeIndex(s.roomTypes, room) < |s.roomTypes|
  }

  /** One room type after `room` is given to `guest`: the room leaves the free list (the first
      occurrence is erased), its guest is recorded, and the count drops by one. */
  function Occupy(rt: RoomType, guest: string, room: int): RoomType
    requires room in rt.availableRoomNumbers
  {
    rt.(guests := rt.guests[room := guest],
        availableRoomNumbers := RemoveAt(rt.availableRoomNumbers, IndexOf(rt.availableRoomNumbers, room)),
        availableRooms := rt.availableRooms - 1)
  }

  /** The state after `bookRoom(guest, date, room)`: on success every index records the booking;
      the undo stack, the revenue and the detailed records are left to the caller. */
  function Booked(s: State, guest: string, date: string, room: int): State {
    var t := FreeTypeIndex(s.roomTypes, room);
    if t == |s.roomTypes| then s
    else
      s.(roomTypes := s.roomTypes[t := Occupy(s.roomTypes[t], guest, room)],
         reservations := Record(s.reservations, date, room, guest),
         people := s.people + [guest],
         roomsnums := s.roomsnums + [room],
         guestToRooms := AddRoom(s.guestToRooms, guest, room),
         guestHistory := s.guestHistory + [guest],
         occupied := Insert(s.occupied, room))
  }

  // ---------------------------------------------------------------- reserveRoom

  /** Whether `reserveRoom` with this option gets as far as booking: the option names a type
      (1 to the number of types, in key order) and that type has a free room. */
  predicate Bookable(s: State, option: int) {
    1 <= option <= |s.roomTypes| && |s.roomTypes[option - 1].availableRoomNumbers| > 0
  }

  /** The state after `reserveRoom(option, guest, startDate, _, startTime, durationDays)`: the
      front of the chosen type's free list is booked, priced at pricePerNight * durationDays,
      added to the revenue, pushed on the undo stack and recorded in detail. */
  function Reserved(s: State, option: int, guest: string, startDate: string, startTime: int, durationDays: int)
    : State
  {
    if !Bookable(s, option) then s
    else
      var rt := s.roomTypes[option - 1];
      var room := rt.availableRoomNumbers[0];
      if !CanBook(s, room) then s
      else
        var cost := rt.pricePerNight * durationDays;
        var b := Booked(s, guest, startDate, room);
        b.(totalRevenue := b.totalRevenue + cost,
           bookingHistory := b.bookingHistory + [Action(guest, startDate, room, durationDays, rt.pricePerNight, cost)],
           reservationsForDay := b.reservationsForDay
             + [Reservation(guest, room, rt.name, startDate, durationDays, startTime, rt.pricePerNight, cost)])
  }

  // ---------------------------------------------------------------- undoLastBooking

  /** The room type undo settles on: the first, in key order, whose full room list holds `room`;
      |types| when none does. */
  function OwningTypeIndex(types: seq<RoomType>, room: int): (t: nat)
    ensures t <= |types|
    ensures t < |types| ==> room in types[t].allRoomNumbers
    ensures forall u :: 0 <= u < t ==> room !in types[u].allRoomNumbers
  {
    if |types| == 0 then 0
    else if room in types[0].allRoomNumbers then 0
    else 1 + OwningTypeIndex(types[1..], room)
  }

  /** One room type after undo frees `room`: its guest entry is erased, and the room is appended
      to the back of the free list (and counted) only if it is not already there. */
  function Release(rt: RoomType, room: int): RoomType {
    if room in rt.availableRoomNumbers then rt.(guests := rt.guests - {room})
    else
      rt.(guests := rt.guests - {room},
          availableRoomNumbers := rt.availableRoomNumbers + [room],
          availableRooms := rt.availableRooms + 1)
  }

  /** `reservations[date].erase(room)`, dropping the date when its map becomes empty. */
  function Unrecord(reservations: map<string, map<int, string>>, date: string, room: int)
    : map<string, map<int, string>>
  {
    if date !in reservations then reservations
    else
      var day := reservations[date] - {room};
      if |day| == 0 then reservations - {date} else reservations[date := day]
  }

  /** Every occurrence of `room` erased from the guest's list, dropping the guest when the list
      becomes empty. */
  function Unassign(guestToRooms: map<string, seq<int>>, guest: string, room: int): map<string, seq<int>> {
    if guest !in guestToRooms then guestToRooms
    else
      var rooms := RemoveAll(guestToRooms[guest], room);
      if |rooms| == 0 then guestToRooms - {guest} else guestToRooms[guest := rooms]
  }

  /** The parallel vectors `people` and `roomsnums` read as (guest, room) pairs. */
  function Pairs(people: seq<string>, roomsnums: seq<int>): (r: seq<(string, int)>)
    requires |people| == |roomsnums|
    ensures |r| == |people|
  {
    seq(|people|, i requires 0 <= i < |people| => (people[i], roomsnums[i]))
  }

  /** The (guest, room, stay date) of each detailed record: what undo matches them on. */
  function Stays(rs: seq<Reservation>): (r: seq<(string, int, string)>)
    ensures |r| == |rs|
  {
    seq(|rs|, i requires 0 <= i < |rs| => (rs[i].guestName, rs[i].roomNumber, rs[i].stayDate))
  }

  /** The state after `undoLastBooking`. With nothing to undo it is unchanged. Otherwise the top
      action is popped first; if no type lists its room, nothing else happens. Else the revenue
      drops by the action's cost (never below 0), the room is freed, its date entry erased, the
      last matching (guest, room) pair, the last matching detailed record and the guest's last
      history entry are erased, the room leaves the guest's list and the tree. */
  function Undone(s: State): State
    requires |s.people| == |s.roomsnums|
  {
    if |s.bookingHistory| == 0 then s
    else
      var last := s.bookingHistory[|s.bookingHistory| - 1];
      var popped := s.(bookingHistory := s.bookingHistory[..|s.bookingHistory| - 1]);
      var t := OwningTypeIndex(s.roomTypes, last.roomNumber);
      if t == |s.roomTypes| then popped
      else
        var revenue := s.totalRevenue - last.totalCost;
        var i := LastIndexOf(Pairs(s.people, s.roomsnums), (last.guestName, last.roomNumber));
        var j := LastIndexOf(Stays(s.reservationsForDay), (last.guestName, last.roomNumber, last.date));
        var k := LastIndexOf(s.guestHistory, last.guestName);
        popped.(
          totalRevenue := if revenue < 0 then 0 else revenue,
          roomTypes := s.roomTypes[t := Release(s.roomTypes[t], last.roomNumber)],
          reservations := Unrecord(s.reservations, last.date, last.roomNumber),
          people := EraseFound(s.people, i),
          roomsnums := EraseFound(s.roomsnums, i),
          reservationsForDay := EraseFound(s.reservationsForDay, j),
          guestHistory := EraseFound(s.guestHistory, k),
          guestToRooms := Unassign(s.guestToRooms, last.guestName, last.roomNumber),
          occupied := Remove(s.occupied, last.roomNumber))
  }

  // ---------------------------------------------------------------- resetStateForNewDate

  /** A room type with every room free again. */
  function ResetType(rt: RoomType): RoomType {
    rt.(availableRooms := rt.totalRooms, guests := map[], availableRoomNumbers := rt.allRoomNumbers)
  }

  function ResetTypes(types: seq<RoomType>): (r: seq<RoomType>)
    ensures |r| == |types|
    ensures forall t :: 0 <= t < |types| ==> r[t] == ResetType(types[t])
  {
    seq(|types|, t requires 0 <= t < |types| => ResetType(types[t]))
  }

  /** The state after `resetStateForNewDate`: every per-date index emptied, revenue 0, every room free. */
  function Reset(s: State): State {
    State(ResetTypes(s.roomTypes), 0, [], [], [], map[], map[], [], Leaf, [])
  }
}

=== FILE: catalogue.dfy ===
/** The room catalogue: `roomTypes` as a std::map keyed by type name, kept here as a list in
    key order, and the four types that the `HiltonHotel` constructor seeds into it. Because the
    map orders its keys, "option k" of `reserveRoom` is the k-th name in lexicographic order,
    not the k-th type seeded. */
module Catalogue {
  import opened Sequences
  import opened OccupancyTree
  import opened Booking
  import opened Invariant
  import Properties

  // ---------------------------------------------------------------- key order

  /** std::string's `<`: lexicographic by character code, a proper prefix first. */
  predicate LexLess(a: string, b: string) {
    if |b| == 0 then false
    else if |a| == 0 then true
    else if a[0] != b[0] then a[0] < b[0]
    else LexLess(a[1..], b[1..])
  }

  lemma {:induction false} LexIrreflexive(a: string)
    ensures !LexLess(a, a)
  {
    if |a| > 0 {
      LexIrreflexive(a[1..]);
    }
  }

  lemma {:induction false} LexTotal(a: string, b: string)
    ensures a == b || LexLess(a, b) || LexLess(b, a)
  {
    if |a| > 0 && |b| > 0 && a[0] == b[0] {
      LexTotal(a[1..], b[1..]);
      if a[1..] == b[1..] {
        assert a == [a[0]] + a[1..] && b == [b[0]] + b[1..];
      }
    }
  }

  lemma {:induction false} LexTransitive(a: string, b: string, c: string)
    requires LexLess(a, b) && LexLess(b, c)
    ensures LexLess(a, c)
  {
    if |a| > 0 && a[0] == b[0] && b[0] == c[0] {
      LexTransitive(a[1..], b[1..], c[1..]);
    }
  }

  /** The types are in strictly ascending key order, as a std::map iterates them. */
  ghost predicate Sorted(types: seq<RoomType>) {
    forall i, j :: 0 <= i < j < |types| ==> LexLess(types[i].name, types[j].name)
  }

  function Names(types: seq<RoomType>): (r: seq<string>)
    ensures |r| == |types|
  {
    seq(|types|, i requires 0 <= i < |types| => types[i].name)
  }

  // ---------------------------------------------------------------- roomTypes[key] = value

  /** `roomTypes[rt.name] = rt`: the entry with that key is replaced, or the new entry goes
      in at its place in key order. */
  function PutType(types: seq<RoomType>, rt: RoomType): (r: seq<RoomType>)
    ensures rt in r
    ensures |types| <= |r| <= |types| + 1
  {
    if |types| == 0 then [rt]
    else if types[0].name == rt.name then [rt] + types[1..]
    else if LexLess(rt.name, types[0].name) then [rt] + types
    else [types[0]] + PutType(types[1..], rt)
  }

  /** After the put, the keys are the old keys and the new one. */
  lemma {:induction false} PutTypeNames(types: seq<RoomType>, rt: RoomType)
    ensures Elems(Names(PutType(types, rt))) == Elems(Names(types)) + {rt.name}
  {
    if |types| > 0 {
      var rest := types[1..];
      assert types == [types[0]] + rest;
      NamesCons(types[0], rest);
      ElemsConcat([types[0].name], Names(rest));
      if types[0].name == rt.name {
        NamesCons(rt, rest);
        ElemsConcat([rt.name], Names(rest));
      } else if LexLess(rt.name, types[0].name) {
        NamesCons(rt, types);
        ElemsConcat([rt.name], Names(types));
      } else {
        PutTypeNames(rest, rt);
        NamesCons(types[0], PutType(rest, rt));
        ElemsConcat([types[0].name], Names(PutType(rest, rt)));
      }
    } else {
      assert Names(PutType(types, rt)) == [rt.name];
      assert Elems(Names(types)) == {};
    }
  }

  lemma NamesCons(x: RoomType, ys: seq<RoomType>)
    ensures Names([x] + ys) == [x.name] + Names(ys)
  {
  }

  /** A new key adds exactly one entry. */
  lemma {:induction false} PutTypeNewKey(types: seq<RoomType>, rt: RoomType)
    requires rt.name !in Names(types)
    ensures |PutType(types, rt)| == |types| + 1
  {
    if |types| > 0 {
      assert Names(types)[0] == types[0].name;
      assert Names(types[1..]) == Names(types)[1..];
      PutTypeNewKey(types[1..], rt);
    }
  }

  /** In a sorted catalogue, putting an existing key replaces that entry in place. */
  lemma {:induction false} PutTypeExisting(types: seq<RoomType>, rt: RoomType, i: nat)
    requires Sorted(types) && i < |types| && types[i].name == rt.name
    ensures PutType(types, rt) == types[i := rt]
  {
    if i > 0 {
      LexIrreflexive(rt.name);
      assert LexLess(types[0].name, rt.name);
      if LexLess(rt.name, types[0].name) {
        LexTransitive(rt.name, types[0].name, rt.name);
      }
      PutTypeExisting(types[1..], rt, i - 1);
      assert [types[0]] + types[1..][i - 1 := rt] == types[i := rt];
    }
  }

  /** The put keeps the catalogue in key order, so no key appears twice. */
  lemma {:induction false} PutTypeSorted(types: seq<RoomType>, rt: RoomType)
    requires Sorted(types)
    ensures Sorted(PutType(types, rt))
    ensures NoDup(Names(PutType(types, rt)))
  {
    if |types| > 0 {
      if types[0].name == rt.name {
      } else if LexLess(rt.name, types[0].name) {
        var r := [rt] + types;
        forall i, j | 0 <= i < j < |r| ensures LexLess(r[i].name, r[j].name) {
          if i == 0 && j > 1 {
            LexTransitive(rt.name, types[0].name, types[j - 1].name);
          }
        }
      } else {
        PutTypeSorted(types[1..], rt);
        PutTypeNames(types[1..], rt);
        PutSorted(types, rt, PutType(types[1..], rt));
      }
    }
    SortedNamesDistinct(PutType(types, rt));
  }

  /** Putting a key after the front one keeps the front one first. */
  lemma PutSorted(types: seq<RoomType>, rt: RoomType, rest: seq<RoomType>)
    requires |types| > 0 && types[0].name != rt.name && !LexLess(rt.name, types[0].name)
    requires Elems(Names(rest)) == Elems(Names(types[1..])) + {rt.name}
    requires Sorted(types) && Sorted(rest)
    ensures Sorted([types[0]] + rest)
  {
    LexTotal(types[0].name, rt.name);
    var r := [types[0]] + rest;
    forall i, j | 0 <= i < j < |r| ensures LexLess(r[i].name, r[j].name) {
      if i == 0 {
        var n := r[j].name;
        assert n == Names(rest)[j - 1];
        assert n in Elems(Names(rest));
        if n != rt.name {
          var k :| 0 <= k < |types[1..]| && Names(types[1..])[k] == n;
          assert types[k + 1].name == n;
        }
      } else {
        assert r[i] == rest[i - 1] && r[j] == rest[j - 1];
      }
    }
  }

  /** A sorted catalogue has no key twice. */
  lemma SortedNamesDistinct(types: seq<RoomType>)
    requires Sorted(types)
    ensures NoDup(Names(types))
  {
    forall i, j | 0 <= i < j < |types| ensures Names(types)[i] != Names(types)[j] {
      LexIrreflexive(types[i].name);
    }
  }

  // ---------------------------------------------------------------- the seeded catalogue

  /** The rooms lo, lo + 1, ..., hi, as the seeding loops push them. */
  function Range(lo: int, hi: int): (r: seq<int>)
    ensures |r| == if lo <= hi then hi - lo + 1 else 0
    ensures forall k :: 0 <= k < |r| ==> r[k] == lo + k
  {
    if lo > hi then [] else seq(hi - lo + 1, k requires 0 <= k <= hi - lo => lo + k)
  }

  lemma RangeFacts(lo: int, hi: int)
    ensures NoDup(Range(lo, hi))
    ensures forall x :: x in Elems(Range(lo, hi)) <==> lo <= x <= hi
  {
    var r := Range(lo, hi);
    forall x | lo <= x <= hi ensures x in Elems(r) {
      assert r[x - lo] == x;
    }
  }

  /** A freshly seeded type: every room free, no guests. */
  function Seeded(name: string, price: int, range: string, lo: int, hi: int): (rt: RoomType)
    ensures rt.name == name && rt.pricePerNight == price && rt.roomRange == range
    ensures rt.availableRoomNumbers == rt.allRoomNumbers == Range(lo, hi)
    ensures rt.totalRooms == rt.availableRooms == |Range(lo, hi)| && rt.guests == map[]
  {
    var rooms := Range(lo, hi);
    RoomType(name, |rooms|, |rooms|, price, range, rooms, map[], rooms)
  }

  const Courtyard := Seeded("Standard Rooms, Courtyard", 125, "101 thru 170", 101, 170)
  const Scenic := Seeded("Standard Room, Scenic", 145, "201 thru 235", 201, 235)
  const Deluxe := Seeded("Deluxe Suite", 350, "236 thru 250", 236, 250)
  const Penthouse := Seeded("Penthouse", 1135, "301 and 302", 301, 302)

  /** The catalogue the constructor builds, putting the four types in the order it seeds them. */
  function HiltonCatalogue(): seq<RoomType> {
    PutType(PutType(PutType(PutType([], Courtyard), Scenic), Deluxe), Penthouse)
  }

  /** Four types put in the order d, c, a, b with keys a < b < c < d come out as a, b, c, d. */
  lemma PutFour(a: RoomType, b: RoomType, c: RoomType, d: RoomType)
    requires LexLess(a.name, b.name) && LexLess(b.name, c.name) && LexLess(c.name, d.name)
    ensures PutType(PutType(PutType(PutType([], d), c), a), b) == [a, b, c, d]
  {
    LexIrreflexive(a.name);
    LexIrreflexive(b.name);
    LexIrreflexive(c.name);
    LexTransitive(a.name, b.name, c.name);
    assert !LexLess(d.name, c.name) by { LexIrreflexive(c.name); if LexLess(d.name, c.name) { LexTransitive(c.name, d.name, c.name); } }
    assert !LexLess(b.name, a.name) by { if LexLess(b.name, a.name) { LexTransitive(a.name, b.name, a.name); } }
    assert PutType([], d) == [d];
    assert PutType([d], c) == [c, d];
    assert PutType([c, d], a) == [a, c, d];
    assert PutType([c, d], b) == [b, c, d];
    assert PutType([a, c, d], b) == [a] + PutType([c, d], b);
  }

  /** Strings that agree before position k and differ first there compare as at k. */
  lemma {:induction false} LexFirstDifference(a: string, b: string, k: nat)
    requires k < |a| && k < |b| && a[..k] == b[..k] && a[k] < b[k]
    ensures LexLess(a, b)
  {
    if k > 0 {
      assert a[0] == a[..k][0] && b[0] == b[..k][0];
      assert a[1..][..k - 1] == a[..k][1..] && b[1..][..k - 1] == b[..k][1..];
      LexFirstDifference(a[1..], b[1..], k - 1);
    }
  }

  /** The order of the four seeded names: "Standard Room, Scenic" sorts before "Standard Rooms,
      Courtyard" because ',' precedes 's'. */
  lemma HiltonNameOrder(deluxe: string, penthouse: string, scenic: string, courtyard: string)
    requires deluxe == "Deluxe Suite" && penthouse == "Penthouse"
    requires scenic == "Standard Room, Scenic" && courtyard == "Standard Rooms, Courtyard"
    ensures LexLess(deluxe, penthouse) && LexLess(penthouse, scenic) && LexLess(scenic, courtyard)
  {
    LexFirstDifference(deluxe, penthouse, 0);
    LexFirstDifference(penthouse, scenic, 0);
    assert scenic[..13] == courtyard[..13];
    LexFirstDifference(scenic, courtyard, 13);
  }

  /** The constructor's puts leave the four types in key order. */
  lemma HiltonOptionOrder()
    ensures HiltonCatalogue() == [Deluxe, Penthouse, Scenic, Courtyard]
  {
    HiltonNameOrder(Deluxe.name, Penthouse.name, Scenic.name, Courtyard.name);
    PutFour(Deluxe, Penthouse, Scenic, Courtyard);
  }

  /** Options 1 to 4 are Deluxe Suite, Penthouse, Standard Room, Scenic and Standard Rooms,
      Courtyard: the option order is the key order, not the seeding order. */
  lemma HiltonOptionNames()
    ensures Names(HiltonCatalogue())
      == ["Deluxe Suite", "Penthouse", "Standard Room, Scenic", "Standard Rooms, Courtyard"]
  {
    var c := [Deluxe, Penthouse, Scenic, Courtyard];
    assert Names(c) == ["Deluxe Suite", "Penthouse", "Standard Room, Scenic", "Standard Rooms, Courtyard"];
    HiltonOptionOrder();
  }

  /** Strings that agree on their first k characters compare as their rests do. */
  lemma {:induction false} LexSharedPrefix(a: string, b: string, k: nat)
    requires k <= |a| && k <= |b| && a[..k] == b[..k]
    ensures LexLess(a, b) == LexLess(a[k..], b[k..])
  {
    if k > 0 {
      assert a[0] == a[..k][0] && b[0] == b[..k][0];
      assert a[1..][..k - 1] == a[..k][1..] && b[1..][..k - 1] == b[..k][1..];
      LexSharedPrefix(a[1..], b[1..], k - 1);
      assert a[1..][k - 1..] == a[k..] && b[1..][k - 1..] == b[k..];
    }
  }

  /** A type fresh from seeding: its rooms listed once, all free, and counted. */
  ghost predicate Fresh(rt: RoomType) {
    NoDup(rt.allRoomNumbers) && rt.totalRooms == |rt.allRoomNumbers| && TypeValid(rt) && rt.guests == map[]
  }

  lemma SeededFresh(rt: RoomType, lo: int, hi: int)
    requires rt.availableRoomNumbers == rt.allRoomNumbers == Range(lo, hi)
    requires rt.totalRooms == rt.availableRooms == |Range(lo, hi)| && rt.guests == map[]
    ensures Fresh(rt)
  {
    RangeFacts(lo, hi);
  }

  /** Types seeded with ranges where one ends before the other starts share no room. */
  lemma SeededApart(x: RoomType, y: RoomType, lo1: int, hi1: int, lo2: int, hi2: int)
    requires x.allRoomNumbers == Range(lo1, hi1) && y.allRoomNumbers == Range(lo2, hi2) && hi1 < lo2
    ensures Elems(x.allRoomNumbers) !! Elems(y.allRoomNumbers)
  {
    RangeFacts(lo1, hi1);
    RangeFacts(lo2, hi2);
  }

  /** Four fresh types with pairwise disjoint rooms make a sound catalogue with no guests. */
  lemma FourSound(a: RoomType, b: RoomType, c: RoomType, d: RoomType)
    requires Fresh(a) && Fresh(b) && Fresh(c) && Fresh(d)
    requires Elems(a.allRoomNumbers) !! Elems(b.allRoomNumbers) && Elems(a.allRoomNumbers) !! Elems(c.allRoomNumbers)
    requires Elems(a.allRoomNumbers) !! Elems(d.allRoomNumbers) && Elems(b.allRoomNumbers) !! Elems(c.allRoomNumbers)
    requires Elems(b.allRoomNumbers) !! Elems(d.allRoomNumbers) && Elems(c.allRoomNumbers) !! Elems(d.allRoomNumbers)
    ensures CatalogueSound([a, b, c, d]) && TypesFollow([a, b, c, d], map[])
  {
    var c4 := [a, b, c, d];
    forall t | 0 <= t < 4 ensures Fresh(c4[t]) && c4[t].guests == Restrict(map[], Elems(c4[t].allRoomNumbers)) {
    }
    forall t, u | 0 <= t < u < 4 ensures Elems(c4[t].allRoomNumbers) !! Elems(c4[u].allRoomNumbers) {
    }
  }

  /** The seeded catalogue is sound: each type lists its rooms once and counts them, and the
      four ranges 101-170, 201-235, 236-250 and 301-302 do not overlap; every room is free. */
  lemma HiltonSound()
    ensures CatalogueSound(HiltonCatalogue()) && TypesFollow(HiltonCatalogue(), map[])
  {
    HiltonOptionOrder();
    SeededFresh(Deluxe, 236, 250);
    SeededFresh(Penthouse, 301, 302);
    SeededFresh(Scenic, 201, 235);
    SeededFresh(Courtyard, 101, 170);
    SeededApart(Deluxe, Penthouse, 236, 250, 301, 302);
    SeededApart(Scenic, Deluxe, 201, 235, 236, 250);
    SeededApart(Courtyard, Deluxe, 101, 170, 236, 250);
    SeededApart(Scenic, Penthouse, 201, 235, 301, 302);
    SeededApart(Courtyard, Penthouse, 101, 170, 301, 302);
    SeededApart(Courtyard, Scenic, 101, 170, 201, 235);
    FourSound(Deluxe, Penthouse, Scenic, Courtyard);
  }

  /** The hotel right after construction: the seeded catalogue, every other index empty. */
  function Initial(): (s: State)
    ensures Valid(s)
  {
    HiltonSound();
    State(HiltonCatalogue(), 0, [], [], [], map[], map[], [], Leaf, [])
  }

  /** A reserve and its undo, seen from the chosen type's free list, the stack and the revenue. */
  lemma ReserveFrontThenUndo(s: State, option: int, guest: string, date: string, hour: int, nights: int)
    requires Valid(s) && Bookable(s, option)
    ensures var rt := s.roomTypes[option - 1]; var avail := rt.availableRoomNumbers;
      var r := Reserved(s, option, guest, date, hour, nights);
      && r.bookingHistory
         == s.bookingHistory + [Action(guest, date, avail[0], nights, rt.pricePerNight, rt.pricePerNight * nights)]
      && r.totalRevenue == s.totalRevenue + rt.pricePerNight * nights
      && r.occupied == Insert(s.occupied, avail[0])
      && r.roomTypes[option - 1].availableRooms == rt.availableRooms - 1
      && |r.people| == |r.roomsnums|
      && Undone(r).roomTypes[option - 1].availableRoomNumbers == avail[1..] + [avail[0]]
      && Undone(r).roomTypes[option - 1].availableRooms == rt.availableRooms
      && Undone(r).occupied == s.occupied
      && Undone(r).bookingHistory == s.bookingHistory
      && Undone(r).totalRevenue == if s.totalRevenue < 0 then 0 else s.totalRevenue
  {
    Properties.ReserveOutcome(s, option, guest, date, hour, nights);
    Properties.FrontRoomFree(s, option);
    Properties.ReservedIs(s, option, guest, date, hour, nights);
    Properties.ReservedLengths(s, option, guest, date, hour, nights);
    Properties.ReserveUndoRoundTrip(s, option, guest, date, hour, nights);
  }

  /** Reserving option 1 for two nights in the new hotel books Deluxe Suite room 236 for $700:
      the tree holds just 236 and the suite has 14 rooms left. Undoing it empties the tree, frees
      236 again at the back of the free list and gives the suite its 15 rooms back. (The equal
      lengths of `people` and `roomsnums` are what `Undone` needs to apply.) */
  lemma DeluxeScenario(guest: string, date: string)
    ensures var s := Reserved(Initial(), 1, guest, date, 15, 2);
      && s.bookingHistory == [Action(guest, date, 236, 2, 350, 700)] && s.totalRevenue == 700
      && InOrder(s.occupied) == [236] && s.roomTypes[0].availableRooms == 14
      && |s.people| == |s.roomsnums|
      && Undone(s).roomTypes[0].availableRoomNumbers == Range(237, 250) + [236]
      && Undone(s).roomTypes[0].availableRooms == 15
      && InOrder(Undone(s).occupied) == []
      && Undone(s).bookingHistory == [] && Undone(s).totalRevenue == 0
  {
    HiltonOptionOrder();
    DeluxeFirst(Initial(), guest, date);
  }

  /** The scenario above for any valid state whose option 1 is the untouched Deluxe Suite. */
  lemma DeluxeFirst(s0: State, guest: string, date: string)
    requires Valid(s0) && |s0.roomTypes| > 0 && s0.roomTypes[0] == Deluxe
    requires s0.bookingHistory == [] && s0.totalRevenue == 0 && s0.occupied == Leaf
    ensures var s := Reserved(s0, 1, guest, date, 15, 2);
      && s.bookingHistory == [Action(guest, date, 236, 2, 350, 700)] && s.totalRevenue == 700
      && InOrder(s.occupied) == [236] && s.roomTypes[0].availableRooms == 14
      && |s.people| == |s.roomsnums|
      && Undone(s).roomTypes[0].availableRoomNumbers == Range(237, 250) + [236]
      && Undone(s).roomTypes[0].availableRooms == 15
      && InOrder(Undone(s).occupied) == []
      && Undone(s).bookingHistory == [] && Undone(s).totalRevenue == 0
  {
    var avail := Deluxe.availableRoomNumbers;
    assert avail[0] == 236 && avail[1..] == Range(237, 250);
    ReserveFrontThenUndo(s0, 1, guest, date, 15, 2);
  }
}

=== FILE: hotel.dfy ===
/** The `Hotel` object itself, as the `HiltonHotel` constructor builds it: its fields are updated
    in place by the operations, each of which is proved to leave exactly the state its function
    in the Booking and Persistence modules describes, and to keep the invariant. */
module HotelEngine {
  import opened Wrappers
  import opened Sequences
  import opened Text
  import opened OccupancyTree
  import opened Booking
  import opened Invariant
  import opened Catalogue
  import opened Persistence

  // ---------------------------------------------------------------- the searches the methods run

  /** `std::find` over a room list: the first index holding `x`, or |xs| when none does. */
  method Find(xs: seq<int>, x: int) returns (i: nat)
    ensures i == IndexOf(xs, x)
  {
    i := 0;
    while i < |xs| && xs[i] != x
      invariant i <= |xs|
      invariant forall j :: 0 <= j < i ==> xs[j] != x
    {
      i := i + 1;
    }
  }

  /** The search of `bookRoom`: the first type, in key order, whose free list holds `room`. */
  method FindFreeType(types: seq<RoomType>, room: int) returns (t: nat)
    ensures t == FreeTypeIndex(types, room)
  {
    t := 0;
    while t < |types|
      invariant t <= |types|
      invariant forall u :: 0 <= u < t ==> room !in types[u].availableRoomNumbers
    {
      var j := Find(types[t].availableRoomNumbers, room);
      if j < |types[t].availableRoomNumbers| {
        return;
      }
      t := t + 1;
    }
  }

  /** The search of undo: the first type, in key order, whose full room list holds `room`. */
  method FindOwningType(types: seq<RoomType>, room: int) returns (t: nat)
    ensures t == OwningTypeIndex(types, room)
  {
    t := 0;
    while t < |types|
      invariant t <= |types|
      invariant forall u :: 0 <= u < t ==> room !in types[u].allRoomNumbers
    {
      var j := Find(types[t].allRoomNumbers, room);
      if j < |types[t].allRoomNumbers| {
        return;
      }
      t := t + 1;
    }
  }

  /** Undo's backward scan of `people`/`roomsnums` for the last (guest, room) pair; -1 if none. */
  method LastPairIndex(people: seq<string>, roomsnums: seq<int>, guest: string, room: int) returns (i: int)
    requires |people| == |roomsnums|
    ensures i == LastIndexOf(Pairs(people, roomsnums), (guest, room))
  {
    i := |people| - 1;
    while i >= 0
      invariant -1 <= i < |people|
      invariant forall j :: i < j < |people| ==> Pairs(people, roomsnums)[j] != (guest, room)
    {
      if people[i] == guest && roomsnums[i] == room {
        assert Pairs(people, roomsnums)[i] == (guest, room);
        return;
      }
      i := i - 1;
    }
  }

  /** Undo's backward scan of the detailed records for the last one of (guest, room, date). */
  method LastStayIndex(rs: seq<Reservation>, guest: string, room: int, date: string) returns (i: int)
    ensures i == LastIndexOf(Stays(rs), (guest, room, date))
  {
    i := |rs| - 1;
    while i >= 0
      invariant -1 <= i < |rs|
      invariant forall j :: i < j < |rs| ==> Stays(rs)[j] != (guest, room, date)
    {
      if rs[i].guestName == guest && rs[i].roomNumber == room && rs[i].stayDate == date {
        assert Stays(rs)[i] == (guest, room, date);
        return;
      }
      i := i - 1;
    }
  }

  /** Undo's walk from the back of the guest history to the guest's last entry; -1 if none. */
  method LastGuestIndex(history: seq<string>, guest: string) returns (i: int)
    ensures i == LastIndexOf(history, guest)
  {
    i := |history| - 1;
    while i >= 0 && history[i] != guest
      invariant -1 <= i < |history|
      invariant forall j :: i < j < |history| ==> history[j] != guest
    {
      i := i - 1;
    }
  }

  /** The erase-remove idiom on a guest's room list: every `room` taken out, the rest in order. */
  method RemoveRoom(rooms: seq<int>, room: int) returns (kept: seq<int>)
    ensures kept == RemoveAll(rooms, room)
  {
    kept := [];
    var i := 0;
    while i < |rooms|
      invariant i <= |rooms|
      invariant kept + RemoveAll(rooms[i..], room) == RemoveAll(rooms, room)
    {
      assert rooms[i..] == [rooms[i]] + rooms[i + 1..];
      if rooms[i] != room {
        kept := kept + [rooms[i]];
      }
      i := i + 1;
    }
  }

  /** Undo's change to the owning type: the guest entry erased, and the room appended to the back of
      the free list (and counted) only when `find` does not see it there. */
  method ReleaseRoom(rt: RoomType, room: int) returns (r: RoomType)
    ensures r == Release(rt, room)
  {
    r := rt.(guests := rt.guests - {room});
    var j := Find(r.availableRoomNumbers, room);
    if j == |r.availableRoomNumbers| {
      r := r.(availableRoomNumbers := r.availableRoomNumbers + [room], availableRooms := r.availableRooms + 1);
    }
  }

  /** Undo's change to the guest index: the room removed from the guest's list, and the guest
      dropped when the list becomes empty. */
  method UnassignRoom(guestToRooms: map<string, seq<int>>, guest: string, room: int)
    returns (r: map<string, seq<int>>)
    ensures r == Unassign(guestToRooms, guest, room)
  {
    r := guestToRooms;
    if guest in guestToRooms {
      var rooms := RemoveRoom(guestToRooms[guest], room);
      if |rooms| == 0 {
        r := r - {guest};
      } else {
        r := r[guest := rooms];
      }
    }
  }

  /** The first loop of `saveToFile`: the records of the date, in list order, and their summed cost. */
  method CollectForDate(rs: seq<Reservation>, date: string) returns (toSave: seq<Reservation>, dateRevenue: int)
    ensures toSave == OnDate(rs, date) && dateRevenue == CostSum(toSave)
  {
    toSave, dateRevenue := [], 0;
    var i := 0;
    while i < |rs|
      invariant i <= |rs|
      invariant toSave == OnDate(rs[..i], date)
      invariant dateRevenue == CostSum(toSave)
    {
      var r := rs[i];
      OnDateSnoc(rs, i, date);
      if r.stayDate == date {
        CostSumSnoc(toSave, r);
        toSave := toSave + [r];
        dateRevenue := dateRevenue + r.totalCost;
      }
      i := i + 1;
    }
    assert rs[..i] == rs;
  }

  lemma OnDateSnoc(rs: seq<Reservation>, i: nat, date: string)
    requires i < |rs|
    ensures OnDate(rs[..i + 1], date) == OnDate(rs[..i], date) + (if rs[i].stayDate == date then [rs[i]] else [])
  {
    assert rs[..i + 1][..i] == rs[..i];
  }

  lemma CostSumSnoc(rs: seq<Reservation>, r: Reservation)
    ensures CostSum(rs + [r]) == CostSum(rs) + r.totalCost
  {
    assert (rs + [r])[..|rs|] == rs;
  }

  /** The second loop of `saveToFile`: one line per record, in order. */
  method WriteRecords(rs: seq<Reservation>) returns (lines: seq<string>)
    ensures lines == RecordLines(rs)
  {
    lines := [];
    var n := 0;
    while n < |rs|
      invariant n <= |rs|
      invariant lines == RecordLines(rs[..n])
    {
      RecordLinesSnoc(rs, n);
      lines := lines + [RecordLine(rs[n])];
      n := n + 1;
    }
    assert rs[..n] == rs;
  }

  /** `loadFromFile`'s test of line 2: split it and look for eight fields starting with "GuestName". */
  method ReadsAsHeader(line: string) returns (b: bool)
    ensures b == IsHeader(line)
  {
    var header := Split(line, Delim);
    b := |header| == 8 && header[0] == "GuestName";
  }

  /** `Undone` spelled out for the type undo's search settles on and the indexes its three backward
      scans return. */
  lemma UndoneAt(s: State, t: nat, i: int, k: int, g: int)
    requires |s.people| == |s.roomsnums| && |s.bookingHistory| > 0
    requires var last := s.bookingHistory[|s.bookingHistory| - 1];
      && t == OwningTypeIndex(s.roomTypes, last.roomNumber) && t < |s.roomTypes|
      && i == LastIndexOf(Pairs(s.people, s.roomsnums), (last.guestName, last.roomNumber))
      && k == LastIndexOf(Stays(s.reservationsForDay), (last.guestName, last.roomNumber, last.date))
      && g == LastIndexOf(s.guestHistory, last.guestName)
    ensures var last := s.bookingHistory[|s.bookingHistory| - 1]; var revenue := s.totalRevenue - last.totalCost;
      Undone(s)
      == State(s.roomTypes[t := Release(s.roomTypes[t], last.roomNumber)],
               if revenue < 0 then 0 else revenue,
               EraseFound(s.people, i), EraseFound(s.roomsnums, i), EraseFound(s.reservationsForDay, k),
               Unrecord(s.reservations, last.date, last.roomNumber),
               Unassign(s.guestToRooms, last.guestName, last.roomNumber),
               EraseFound(s.guestHistory, g), Remove(s.occupied, last.roomNumber),
               s.bookingHistory[..|s.bookingHistory| - 1])
  {
  }

  /** Replaying one more line is one more `ReplayLine`. */
  lemma ReplayedSnoc(s0: State, xs: seq<string>, line: string, date: string)
    ensures Replayed(s0, xs + [line], date) == ReplayLine(Replayed(s0, xs, date), line, date)
  {
    assert (xs + [line])[..|xs|] == xs;
  }

  /** `Booked` spelled out for the type `bookRoom`'s search settles on and the index `find` returns. */
  lemma BookedAt(s: State, guest: string, date: string, room: int, t: nat, j: nat)
    requires t == FreeTypeIndex(s.roomTypes, room) && t < |s.roomTypes|
    requires j == IndexOf(s.roomTypes[t].availableRoomNumbers, room)
    ensures var rt := s.roomTypes[t];
      Booked(s, guest, date, room)
      == s.(roomTypes := s.roomTypes[t := rt.(guests := rt.guests[room := guest],
                                              availableRoomNumbers := RemoveAt(rt.availableRoomNumbers, j),
                                              availableRooms := rt.availableRooms - 1)],
            reservations := Record(s.reservations, date, room, guest),
            people := s.people + [guest],
            roomsnums := s.roomsnums + [room],
            guestToRooms := AddRoom(s.guestToRooms, guest, room),
            guestHistory := s.guestHistory + [guest],
            occupied := Insert(s.occupied, room))
  {
  }

  /** The work of `resetStateForNewDate` on the values of the fields: zero the revenue, clear the
      per-date indexes, pop the undo stack until it is empty, drop the occupied-rooms tree and make
      every room of every type free again. */
  method ResetOn(s: State) returns (u: State)
    ensures u == Reset(s)
  {
    var history := s.bookingHistory;
    while |history| > 0
      decreases |history|
    {
      history := history[..|history| - 1];
    }
    var types := s.roomTypes;
    var t := 0;
    while t < |types|
      invariant t <= |types| == |s.roomTypes|
      invariant forall v :: 0 <= v < t ==> types[v] == ResetType(s.roomTypes[v])
      invariant forall v :: t <= v < |types| ==> types[v] == s.roomTypes[v]
    {
      var rt := types[t];
      types := types[t := rt.(availableRooms := rt.totalRooms, guests := map[],
                              availableRoomNumbers := rt.allRoomNumbers)];
      t := t + 1;
    }
    assert types == ResetTypes(s.roomTypes);
    u := State(types, 0, [], [], [], map[], map[], [], Leaf, history);
  }

  /** The work of `bookRoom` on the values of the fields: find the type holding `room` free; when
      there is one, take the room off its free list, give it to the guest and enter the booking in
      every index. */
  method BookOn(s: State, guest: string, date: string, room: int) returns (ok: bool, b: State)
    ensures ok <==> CanBook(s, room)
    ensures b == Booked(s, guest, date, room)
  {
    var t := FindFreeType(s.roomTypes, room);
    if t == |s.roomTypes| {
      return false, s;
    }
    var rt := s.roomTypes[t];
    var j := Find(rt.availableRoomNumbers, room);
    BookedAt(s, guest, date, room, t, j);
    rt := rt.(guests := rt.guests[room := guest],
              availableRoomNumbers := RemoveAt(rt.availableRoomNumbers, j),
              availableRooms := rt.availableRooms - 1);
    b := s.(roomTypes := s.roomTypes[t := rt], reservations := Record(s.reservations, date, room, guest),
            people := s.people + [guest], roomsnums := s.roomsnums + [room],
            guestToRooms := AddRoom(s.guestToRooms, guest, room), guestHistory := s.guestHistory + [guest],
            occupied := Insert(s.occupied, room));
    return true, b;
  }

  /** The work of `reserveRoom` on the values of the fields: check the option and that its type
      has a free room, book the front one through `BookOn`, then price it, add the cost to the
      revenue, push the undo action and record the reservation in detail. */
  method ReserveOn(s: State, option: int, guest: string, startDate: string, startTime: int, durationDays: int)
    returns (u: State)
    ensures u == Reserved(s, option, guest, startDate, startTime, durationDays)
  {
    if option < 1 || option > |s.roomTypes| {
      return s;
    }
    var rt := s.roomTypes[option - 1];
    if |rt.availableRoomNumbers| == 0 {
      return s;
    }
    var room := rt.availableRoomNumbers[0];
    var ok, b := BookOn(s, guest, startDate, room);
    if !ok {
      return s;
    }
    ReservedAt(s, option, guest, startDate, startTime, durationDays);
    var totalCost := rt.pricePerNight * durationDays;
    u := b.(totalRevenue := b.totalRevenue + totalCost,
            bookingHistory := b.bookingHistory + [Action(guest, startDate, room, durationDays, rt.pricePerNight, totalCost)],
            reservationsForDay := b.reservationsForDay
              + [Reservation(guest, room, rt.name, startDate, durationDays, startTime, rt.pricePerNight, totalCost)]);
  }

  /** `Reserved` spelled out for an option whose front room can be booked. */
  lemma ReservedAt(s: State, option: int, guest: string, startDate: string, startTime: int, durationDays: int)
    requires Bookable(s, option)
    requires CanBook(s, s.roomTypes[option - 1].availableRoomNumbers[0])
    ensures var rt := s.roomTypes[option - 1];
      var room := rt.availableRoomNumbers[0];
      var cost := rt.pricePerNight * durationDays;
      var b := Booked(s, guest, startDate, room);
      Reserved(s, option, guest, startDate, startTime, durationDays)
      == b.(totalRevenue := b.totalRevenue + cost,
            bookingHistory := b.bookingHistory + [Action(guest, startDate, room, durationDays, rt.pricePerNight, cost)],
            reservationsForDay := b.reservationsForDay
              + [Reservation(guest, room, rt.name, startDate, durationDays, startTime, rt.pricePerNight, cost)])
  {
  }

  lemma RecordLinesSnoc(rs: seq<Reservation>, n: nat)
    requires n < |rs|
    ensures RecordLines(rs[..n + 1]) == RecordLines(rs[..n]) + [RecordLine(rs[n])]
  {
  }

  /** One seeding loop of the constructor: a type with `total` rooms lo..hi, all of them free. */
  method SeedType(name: string, total: int, price: int, range: string, lo: int, hi: int) returns (rt: RoomType)
    ensures rt == RoomType(name, total, total, price, range, Range(lo, hi), map[], Range(lo, hi))
  {
    rt := RoomType(name, total, total, price, range, [], map[], []);
    var i := lo;
    while i <= hi
      invariant lo <= hi + 1 ==> lo <= i <= hi + 1
      invariant lo > hi ==> i == lo
      invariant rt == RoomType(name, total, total, price, range, Range(lo, i - 1), map[], Range(lo, i - 1))
    {
      rt := rt.(availableRoomNumbers := rt.availableRoomNumbers + [i], allRoomNumbers := rt.allRoomNumbers + [i]);
      i := i + 1;
    }
  }

  /** The work of `undoLastBooking` on the values of the fields: pop the top action; find the type
      that owns its room; lower the revenue (floored at 0), free the room, erase its date entry, the
      last matching pair, detailed record and history entry, its place in the guest's list and the
      tree. */
  method UndoOn(s: State) returns (u: State)
    requires |s.people| == |s.roomsnums|
    ensures u == Undone(s)
  {
    if |s.bookingHistory| == 0 {
      return s;
    }
    var last := s.bookingHistory[|s.bookingHistory| - 1];
    var room := last.roomNumber;
    var popped := s.bookingHistory[..|s.bookingHistory| - 1];
    var t := FindOwningType(s.roomTypes, room);
    if t == |s.roomTypes| {
      return s.(bookingHistory := popped);
    }
    var revenue := s.totalRevenue - last.totalCost;
    if revenue < 0 {
      revenue := 0;
    }
    var rt := ReleaseRoom(s.roomTypes[t], room);
    var i := LastPairIndex(s.people, s.roomsnums, last.guestName, room);
    var k := LastStayIndex(s.reservationsForDay, last.guestName, room, last.date);
    var g := LastGuestIndex(s.guestHistory, last.guestName);
    var rooms := UnassignRoom(s.guestToRooms, last.guestName, room);
    UndoneAt(s, t, i, k, g);
    u := State(s.roomTypes[t := rt], revenue, EraseFound(s.people, i), EraseFound(s.roomsnums, i),
               EraseFound(s.reservationsForDay, k), Unrecord(s.reservations, last.date, room), rooms,
               EraseFound(s.guestHistory, g), Remove(s.occupied, room), popped);
  }

  // ---------------------------------------------------------------- the object

  class Hotel {
    var roomTypes: seq<RoomType>
    var totalRevenue: int
    var people: seq<string>
    var roomsnums: seq<int>
    var reservationsForDay: seq<Reservation>
    var reservations: map<string, map<int, string>>
    var guestToRooms: map<string, seq<int>>
    var guestHistory: seq<string>
    var occupiedRoomsRoot: Tree
    var bookingHistory: seq<Action>

    /** The fields as one value. */
    function Snapshot(): State
      reads this
    {
      State(roomTypes, totalRevenue, people, roomsnums, reservationsForDay, reservations, guestToRooms,
            guestHistory, occupiedRoomsRoot, bookingHistory)
    }

    /** The class invariant: every index agrees with the undo stack. */
    ghost predicate Valid()
      reads this
    {
      Invariant.Valid(Snapshot())
    }

    /** `HiltonHotel(totalRooms)`: the four seeded types, every other index empty. */
    constructor ()
      ensures Snapshot() == Initial() && Valid()
    {
      var types: seq<RoomType> := [];
      var courtyard := SeedType("Standard Rooms, Courtyard", 70, 125, "101 thru 170", 101, 170);
      types := PutType(types, courtyard);
      var scenic := SeedType("Standard Room, Scenic", 35, 145, "201 thru 235", 201, 235);
      types := PutType(types, scenic);
      var deluxe := SeedType("Deluxe Suite", 15, 350, "236 thru 250", 236, 250);
      types := PutType(types, deluxe);
      var penthouse := SeedType("Penthouse", 2, 1135, "301 and 302", 301, 302);
      types := PutType(types, penthouse);
      roomTypes := types;
      totalRevenue := 0;
      people, roomsnums, reservationsForDay := [], [], [];
      reservations, guestToRooms, guestHistory := map[], map[], [];
      occupiedRoomsRoot, bookingHistory := Leaf, [];
    }

    /** `resetStateForNewDate`: the stack popped empty, every per-date index cleared, the revenue
        zeroed and every room type's rooms all free again. */
    method ResetStateForNewDate()
      requires Valid()
      modifies this
      ensures Snapshot() == Reset(old(Snapshot())) && Valid()
    {
      ResetValid(Snapshot());
      var u := ResetOn(Snapshot());
      Store(u);
    }

    /** `bookRoom(guest, date, room)`: succeeds exactly when some type's free list holds the room,
        and then records the booking in every index but the stack. */
    method BookRoom(guest: string, date: string, room: int) returns (ok: bool)
      modifies this
      ensures ok <==> CanBook(old(Snapshot()), room)
      ensures Snapshot() == Booked(old(Snapshot()), guest, date, room)
    {
      var b;
      ok, b := BookOn(Snapshot(), guest, date, room);
      Store(b);
    }

    /** `reserveRoom(option, guest, startDate, endDate, startTime, durationDays)`: books the front
        of the chosen type's free list, prices it, adds it to the revenue, pushes the undo action and
        records it in detail; an invalid option or a full type changes nothing. */
    method ReserveRoom(option: int, guest: string, startDate: string, startTime: int, durationDays: int)
      requires Valid()
      modifies this
      ensures Snapshot() == Reserved(old(Snapshot()), option, guest, startDate, startTime, durationDays)
      ensures Valid()
    {
      ReservedValid(Snapshot(), option, guest, startDate, startTime, durationDays);
      var u := ReserveOn(Snapshot(), option, guest, startDate, startTime, durationDays);
      Store(u);
    }

    /** Writes a state computed on values back into the fields. */
    method Store(u: State)
      modifies this
      ensures Snapshot() == u
    {
      totalRevenue, roomTypes, reservations, people, roomsnums, reservationsForDay, guestHistory, guestToRooms,
        occupiedRoomsRoot, bookingHistory
        := u.totalRevenue, u.roomTypes, u.reservations, u.people, u.roomsnums, u.reservationsForDay,
           u.guestHistory, u.guestToRooms, u.occupied, u.bookingHistory;
    }

    /** `undoLastBooking`: pops the top action and reverses its booking in every index. */
    method UndoLastBooking()
      requires Valid()
      modifies this
      ensures Snapshot() == Undone(old(Snapshot())) && Valid()
    {
      UndoneValid(Snapshot());
      var u := UndoOn(Snapshot());
      Store(u);
    }

    /** `saveToFile(date)`: the lines of the file, or None when no record has that stay date. */
    method SaveToFile(date: string) returns (file: Option<seq<string>>)
      ensures file == Saved(Snapshot(), date)
    {
      var toSave, dateRevenue := CollectForDate(reservationsForDay, date);
      if |toSave| == 0 {
        return None;
      }
      var records := WriteRecords(toSave);
      return Some([RevenuePrefix + IntToString(dateRevenue), Header()] + records);
    }

    /** `loadFromFile(date)` reading `file` (None: it cannot be opened): reset, then revenue from the
        first line, an optional header, and every record line replayed through `bookRoom`. */
    method LoadFromFile(date: string, file: Option<seq<string>>)
      requires Valid()
      modifies this
      ensures Snapshot() == Loaded(old(Snapshot()), date, file) && Valid()
    {
      LoadedValid(Snapshot(), date, file);
      ResetStateForNewDate();
      if file.None? || |file.value| == 0 {
        return;
      }
      var lines := file.value;
      totalRevenue := RevenueOf(lines[0]);
      var start := 1;
      if |lines| > 1 {
        var header := ReadsAsHeader(lines[1]);
        if header {
          start := 2;
        }
      }
      assert start == RecordStart(lines);
      ReplayLines(lines[start..], date);
    }

    /** The record loop of `loadFromFile`: each line read and, when it yields a record, restored. */
    method ReplayLines(lines: seq<string>, date: string)
      modifies this
      ensures Snapshot() == Replayed(old(Snapshot()), lines, date)
    {
      var i := 0;
      while i < |lines|
        invariant i <= |lines|
        invariant Snapshot() == Replayed(old(Snapshot()), lines[..i], date)
      {
        assert lines[..i + 1] == lines[..i] + [lines[i]];
        ReplayedSnoc(old(Snapshot()), lines[..i], lines[i], date);
        var r := ReadRecord(lines[i], date);
        if r.Some? {
          RestoreRecord(r.value);
        }
        i := i + 1;
      }
      assert lines[..i] == lines;
    }

    /** One record of `loadFromFile`'s loop: appended to the detailed records whatever happens, then
        booked, and its action pushed only when `bookRoom` succeeds. */
    method RestoreRecord(r: Reservation)
      modifies this
      ensures Snapshot() == Restore(old(Snapshot()), r)
    {
      reservationsForDay := reservationsForDay + [r];
      var ok := BookRoom(r.guestName, r.stayDate, r.roomNumber);
      if ok {
        bookingHistory := bookingHistory + [Action(r.guestName, r.stayDate, r.roomNumber, r.nights, r.pricePerNight, r.totalCost)];
      }
    }
  }

  /** The parsing half of `loadFromFile`'s loop body: split the line and read its numbers. */
  method ReadRecord(line: string, date: string) returns (r: Option<Reservation>)
    ensures r == ParseLine(line, date)
  {
    if line == "" {
      return None;
    }
    var parsed := Split(line, Delim);
    if |parsed| >= 8 {
      match (Stoi(parsed[1]), Stoi(parsed[4]), Stoi(parsed[5]), Stod(parsed[6]), Stod(parsed[7]))
      case (Some(room), Some(nights), Some(hour), Some(price), Some(cost)) =>
        r := Some(Reservation(parsed[0], room, parsed[2], parsed[3], nights, hour, price, cost));
      case _ =>
        r := None;
    } else if |parsed| >= 2 {
      match Stoi(parsed[1])
      case Some(room) =>
        r := Some(Reservation(parsed[0], room, "", date, 1, 15, 0, 0));
      case None =>
        r := None;
    } else {
      r := None;
    }
  }
}

=== FILE: invariant.dfy ===
/** The invariant that keeps the indexes of the booking engine in step. Every booking still on
    the undo stack is the one source of truth: the parallel vectors, the guest history, the
    per-date ledger, the guest index, the tree and each room type's `guests` map are all
    functions of that stack, and each room type's free list holds exactly its rooms that no
    booking holds. Each state-changing operation is proved to keep it. */
module Invariant {
  import opened Sequences
  import opened OccupancyTree
  import opened Booking

  // ---------------------------------------------------------------- indexes derived from the stack

  function Guests(h: seq<Action>): (r: seq<string>)
    ensures |r| == |h|
  {
    seq(|h|, i requires 0 <= i < |h| => h[i].guestName)
  }

  function Rooms(h: seq<Action>): (r: seq<int>)
    ensures |r| == |h|
  {
    seq(|h|, i requires 0 <= i < |h| => h[i].roomNumber)
  }

  /** `reservations` as the bookings `h` build it, oldest first. */
  function Ledger(h: seq<Action>): map<string, map<int, string>> {
    if |h| == 0 then map[]
    else
      var a := h[|h| - 1];
      Record(Ledger(h[..|h| - 1]), a.date, a.roomNumber, a.guestName)
  }

  /** `guestToRooms` as the bookings `h` build it. */
  function GuestRooms(h: seq<Action>): map<string, seq<int>> {
    if |h| == 0 then map[]
    else
      var a := h[|h| - 1];
      AddRoom(GuestRooms(h[..|h| - 1]), a.guestName, a.roomNumber)
  }

  /** Which guest holds each booked room. */
  function RoomGuests(h: seq<Action>): map<int, string> {
    if |h| == 0 then map[]
    else
      var a := h[|h| - 1];
      RoomGuests(h[..|h| - 1])[a.roomNumber := a.guestName]
  }

  function Restrict(m: map<int, string>, keys: set<int>): map<int, string> {
    map k | k in m && k in keys :: m[k]
  }

  // ---------------------------------------------------------------- the invariant

  /** The catalogue's fixed part: each type lists its rooms once, `totalRooms` counts them, and
      no room belongs to two types. */
  ghost predicate CatalogueSound(types: seq<RoomType>) {
    && (forall t :: 0 <= t < |types| ==>
          NoDup(types[t].allRoomNumbers) && types[t].totalRooms == |types[t].allRoomNumbers|)
    && (forall t, u :: 0 <= t < u < |types| ==>
          Elems(types[t].allRoomNumbers) !! Elems(types[u].allRoomNumbers))
  }

  /** One type's availability: the free list has no duplicates, is counted by `availableRooms`,
      and together with the occupied rooms (the keys of `guests`) partitions the type's rooms. */
  ghost predicate TypeValid(rt: RoomType) {
    && NoDup(rt.availableRoomNumbers)
    && rt.availableRooms == |rt.availableRoomNumbers|
    && Elems(rt.availableRoomNumbers) !! rt.guests.Keys
    && Elems(rt.availableRoomNumbers) + rt.guests.Keys == Elems(rt.allRoomNumbers)
  }

  /** Every type is valid and its `guests` map is the part of `occupants` on its rooms. */
  ghost predicate TypesFollow(types: seq<RoomType>, occupants: map<int, string>) {
    forall t :: 0 <= t < |types| ==>
      TypeValid(types[t]) && types[t].guests == Restrict(occupants, Elems(types[t].allRoomNumbers))
  }

  /** Every index agrees with the undo stack `h`, no room is booked twice, and every booked room
      belongs to some type. */
  ghost predicate Synced(s: State) {
    var h := s.bookingHistory;
    && s.people == Guests(h)
    && s.roomsnums == Rooms(h)
    && s.guestHistory == Guests(h)
    && NoDup(Rooms(h))
    && s.reservations == Ledger(h)
    && s.guestToRooms == GuestRooms(h)
    && SearchTree(s.occupied) && Keys(s.occupied) == Elems(Rooms(h))
    && TypesFollow(s.roomTypes, RoomGuests(h))
    && (forall r :: r in Elems(Rooms(h)) ==>
          exists t :: 0 <= t < |s.roomTypes| && r in s.roomTypes[t].allRoomNumbers)
  }

  ghost predicate Valid(s: State) {
    CatalogueSound(s.roomTypes) && Synced(s)
  }

  /** Two catalogues with the same types, names, prices, ranges and rooms, in the same order. */
  predicate SameCatalogue(a: seq<RoomType>, b: seq<RoomType>) {
    && |a| == |b|
    && forall t :: 0 <= t < |a| ==>
         && a[t].name == b[t].name && a[t].totalRooms == b[t].totalRooms
         && a[t].pricePerNight == b[t].pricePerNight && a[t].roomRange == b[t].roomRange
         && a[t].allRoomNumbers == b[t].allRoomNumbers
  }

  // ---------------------------------------------------------------- facts about the derived indexes

  lemma HistoryAppend(h: seq<Action>, a: Action)
    ensures Guests(h + [a]) == Guests(h) + [a.guestName]
    ensures Rooms(h + [a]) == Rooms(h) + [a.roomNumber]
    ensures Ledger(h + [a]) == Record(Ledger(h), a.date, a.roomNumber, a.guestName)
    ensures GuestRooms(h + [a]) == AddRoom(GuestRooms(h), a.guestName, a.roomNumber)
    ensures RoomGuests(h + [a]) == RoomGuests(h)[a.roomNumber := a.guestName]
  {
    assert (h + [a])[..|h|] == h;
  }

  lemma HistoryLast(h: seq<Action>)
    requires |h| > 0
    ensures h == h[..|h| - 1] + [h[|h| - 1]]
  {
  }

  /** The booked rooms are exactly the rooms of the stack. */
  lemma {:induction false} RoomGuestsKeys(h: seq<Action>)
    ensures RoomGuests(h).Keys == Elems(Rooms(h))
  {
    if |h| > 0 {
      var p, a := h[..|h| - 1], h[|h| - 1];
      HistoryLast(h);
      HistoryAppend(p, a);
      RoomGuestsKeys(p);
    }
  }

  /** No date in the ledger maps to an empty day, and every room in it is a room of the stack. */
  lemma {:induction false} LedgerRooms(h: seq<Action>)
    ensures forall d :: d in Ledger(h) ==> |Ledger(h)[d]| > 0 && Ledger(h)[d].Keys <= Elems(Rooms(h))
  {
    if |h| > 0 {
      var p, a := h[..|h| - 1], h[|h| - 1];
      HistoryLast(h);
      HistoryAppend(p, a);
      LedgerRooms(p);
      forall d | d in Ledger(h) ensures |Ledger(h)[d]| > 0 && Ledger(h)[d].Keys <= Elems(Rooms(h)) {
        if d == a.date {
          assert a.roomNumber in Ledger(h)[d];
        }
      }
    }
  }

  /** No guest in the guest index has an empty list, and every room in it is a room of the stack. */
  lemma {:induction false} GuestRoomsRooms(h: seq<Action>)
    ensures forall g :: g in GuestRooms(h) ==> |GuestRooms(h)[g]| > 0 && Elems(GuestRooms(h)[g]) <= Elems(Rooms(h))
  {
    if |h| > 0 {
      var p, a := h[..|h| - 1], h[|h| - 1];
      HistoryLast(h);
      HistoryAppend(p, a);
      GuestRoomsRooms(p);
      forall g | g in GuestRooms(h) ensures |GuestRooms(h)[g]| > 0 && Elems(GuestRooms(h)[g]) <= Elems(Rooms(h)) {
        if g == a.guestName {
          ElemsConcat(RoomsOf(GuestRooms(p), g), [a.roomNumber]);
        }
      }
    }
  }

  /** Erasing a room just recorded gives back a ledger without empty days. */
  lemma UnrecordRecord(m: map<string, map<int, string>>, date: string, room: int, guest: string)
    requires forall d :: d in m ==> |m[d]| > 0
    requires room !in DayOf(m, date)
    ensures Unrecord(Record(m, date, room, guest), date, room) == m
  {
    var day := DayOf(m, date);
    var rec := m[date := day[room := guest]];
    assert day[room := guest] - {room} == day;
    if date in m {
      assert |day| > 0;
      assert rec[date := day] == m[date := day];
      assert m[date := day] == m;
    } else {
      assert day == map[];
      assert rec - {date} == m;
    }
  }

  /** Undoing the newest booking takes its room out of the ledger and gives back the ledger of
      the bookings before it. */
  lemma UnrecordLast(p: seq<Action>, a: Action)
    requires a.roomNumber !in Elems(Rooms(p))
    ensures Unrecord(Ledger(p + [a]), a.date, a.roomNumber) == Ledger(p)
  {
    HistoryAppend(p, a);
    LedgerRooms(p);
    UnrecordRecord(Ledger(p), a.date, a.roomNumber, a.guestName);
  }

  /** Erasing a room just added to a guest's list gives back an index without empty lists. */
  lemma UnassignAddRoom(m: map<string, seq<int>>, guest: string, room: int)
    requires forall g :: g in m ==> |m[g]| > 0
    requires room !in RoomsOf(m, guest)
    ensures Unassign(AddRoom(m, guest, room), guest, room) == m
  {
    var rooms := RoomsOf(m, guest);
    RemoveAllAppended(rooms, room);
    if guest in m {
      assert m[guest := rooms] == m;
    } else {
      assert m[guest := []] - {guest} == m;
    }
  }

  /** Undoing the newest booking takes its room out of the guest index and gives back the index
      of the bookings before it. */
  lemma UnassignLast(p: seq<Action>, a: Action)
    requires a.roomNumber !in Elems(Rooms(p))
    ensures Unassign(GuestRooms(p + [a]), a.guestName, a.roomNumber) == GuestRooms(p)
  {
    HistoryAppend(p, a);
    GuestRoomsRooms(p);
    assert a.roomNumber !in RoomsOf(GuestRooms(p), a.guestName);
    UnassignAddRoom(GuestRooms(p), a.guestName, a.roomNumber);
  }

  /** Booked rooms stay catalogued when the catalogue's room lists do not change. */
  lemma CataloguedAfter(types: seq<RoomType>, types': seq<RoomType>, rooms: set<int>)
    requires SameCatalogue(types', types)
    requires forall r :: r in rooms ==> exists t :: 0 <= t < |types| && r in types[t].allRoomNumbers
    ensures forall r :: r in rooms ==> exists t :: 0 <= t < |types'| && r in types'[t].allRoomNumbers
  {
    forall r | r in rooms ensures exists t :: 0 <= t < |types'| && r in types'[t].allRoomNumbers {
      var t :| 0 <= t < |types| && r in types[t].allRoomNumbers;
      assert r in types'[t].allRoomNumbers;
    }
  }

  /** Taking a free room of type `t` keeps every type valid and in step with the occupants
      extended by that room. */
  lemma OccupyKeepsTypes(types: seq<RoomType>, occupants: map<int, string>, t: nat, guest: string, room: int)
    requires CatalogueSound(types) && TypesFollow(types, occupants)
    requires t < |types| && room in types[t].availableRoomNumbers
    ensures room !in occupants && room in types[t].allRoomNumbers
    ensures var types' := types[t := Occupy(types[t], guest, room)];
      CatalogueSound(types') && SameCatalogue(types', types) && TypesFollow(types', occupants[room := guest])
  {
    var rt := types[t];
    var i := IndexOf(rt.availableRoomNumbers, room);
    NoDupRemoveAt(rt.availableRoomNumbers, i);
    var rt' := Occupy(rt, guest, room);
    var occupants' := occupants[room := guest];
    assert room in Elems(rt.availableRoomNumbers);
    assert room in Elems(rt.allRoomNumbers);
    assert TypeValid(rt');
    assert rt'.guests == Restrict(occupants', Elems(rt.allRoomNumbers));
    var types' := types[t := rt'];
    forall u | 0 <= u < |types| && u != t
      ensures types[u].guests == Restrict(occupants', Elems(types[u].allRoomNumbers))
    {
      assert room !in Elems(types[u].allRoomNumbers) by {
        if u < t {
          assert Elems(types[u].allRoomNumbers) !! Elems(types[t].allRoomNumbers);
        } else {
          assert Elems(types[t].allRoomNumbers) !! Elems(types[u].allRoomNumbers);
        }
      }
    }
  }

  /** Freeing a booked room of type `t` keeps every type valid and in step with the occupants
      without that room. */
  lemma ReleaseKeepsTypes(types: seq<RoomType>, occupants: map<int, string>, t: nat, room: int)
    requires CatalogueSound(types) && TypesFollow(types, occupants)
    requires t < |types| && room in types[t].allRoomNumbers && room in occupants
    ensures room !in types[t].availableRoomNumbers
    ensures var types' := types[t := Release(types[t], room)];
      CatalogueSound(types') && SameCatalogue(types', types) && TypesFollow(types', occupants - {room})
  {
    var rt := types[t];
    var occupants' := occupants - {room};
    assert room in Elems(rt.allRoomNumbers);
    assert room in rt.guests;
    assert room !in Elems(rt.availableRoomNumbers);
    var rt' := Release(rt, room);
    NoDupAppend(rt.availableRoomNumbers, room);
    ElemsAppend(rt.availableRoomNumbers, room);
    assert TypeValid(rt');
    assert rt'.guests == Restrict(occupants', Elems(rt.allRoomNumbers));
    forall u | 0 <= u < |types| && u != t
      ensures types[u].guests == Restrict(occupants', Elems(types[u].allRoomNumbers))
    {
      assert room !in Elems(types[u].allRoomNumbers) by {
        if u < t {
          assert Elems(types[u].allRoomNumbers) !! Elems(types[t].allRoomNumbers);
        } else {
          assert Elems(types[t].allRoomNumbers) !! Elems(types[u].allRoomNumbers);
        }
      }
    }
  }

  /** Under the invariant each type's free and occupied rooms add up to its total. */
  lemma TypeCounts(s: State, t: nat)
    requires Valid(s) && t < |s.roomTypes|
    ensures s.roomTypes[t].availableRooms + |s.roomTypes[t].guests| == s.roomTypes[t].totalRooms
  {
    var rt := s.roomTypes[t];
    assert TypeValid(rt);
    NoDupCard(rt.availableRoomNumbers);
    NoDupCard(rt.allRoomNumbers);
    assert |rt.guests.Keys| == |rt.guests|;
  }

  // ---------------------------------------------------------------- the operations keep the invariant

  /** `resetStateForNewDate` establishes the invariant from any sound catalogue. */
  lemma ResetValid(s: State)
    requires CatalogueSound(s.roomTypes)
    ensures Valid(Reset(s)) && SameCatalogue(Reset(s).roomTypes, s.roomTypes)
  {
    var types := Reset(s).roomTypes;
    forall t | 0 <= t < |types|
      ensures TypeValid(types[t]) && types[t].guests == Restrict(map[], Elems(types[t].allRoomNumbers))
    {
    }
  }

  /** Occupying a free room keeps the catalogue sound and every type in step with the rooms
      the stack holds once the booking is pushed. */
  lemma BookedTypes(s: State, guest: string, room: int, a: Action)
    requires Valid(s) && CanBook(s, room)
    requires a.guestName == guest && a.roomNumber == room
    ensures var h := s.bookingHistory + [a]; var t := FreeTypeIndex(s.roomTypes, room);
      var types := s.roomTypes[t := Occupy(s.roomTypes[t], guest, room)];
      && CatalogueSound(types) && SameCatalogue(types, s.roomTypes)
      && TypesFollow(types, RoomGuests(h))
      && NoDup(Rooms(h))
      && forall r :: r in Elems(Rooms(h)) ==> exists u :: 0 <= u < |types| && r in types[u].allRoomNumbers
  {
    var h := s.bookingHistory;
    var t := FreeTypeIndex(s.roomTypes, room);
    var types := s.roomTypes[t := Occupy(s.roomTypes[t], guest, room)];
    RoomGuestsKeys(h);
    OccupyKeepsTypes(s.roomTypes, RoomGuests(h), t, guest, room);
    HistoryAppend(h, a);
    NoDupAppend(Rooms(h), room);
    ElemsAppend(Rooms(h), room);
    CataloguedAfter(s.roomTypes, types, Elems(Rooms(h)));
  }

  /** A successful `bookRoom` followed by pushing its action keeps the invariant. */
  lemma BookedValid(s: State, guest: string, date: string, room: int, a: Action)
    requires Valid(s) && CanBook(s, room)
    requires a.guestName == guest && a.date == date && a.roomNumber == room
    ensures var b := Booked(s, guest, date, room);
      Valid(b.(bookingHistory := b.bookingHistory + [a])) && SameCatalogue(b.roomTypes, s.roomTypes)
  {
    var h := s.bookingHistory;
    BookedTypes(s, guest, room, a);
    HistoryAppend(h, a);
    ElemsAppend(Rooms(h), room);
  }

  /** The newest booking's room is booked once: no earlier booking holds it. */
  lemma LastRoomFresh(h: seq<Action>)
    requires |h| > 0 && NoDup(Rooms(h))
    ensures h[|h| - 1].roomNumber !in Elems(Rooms(h[..|h| - 1]))
  {
    var p := h[..|h| - 1];
    HistoryAppend(p, h[|h| - 1]);
    HistoryLast(h);
    forall j | 0 <= j < |p| ensures Rooms(p)[j] != h[|h| - 1].roomNumber {
      assert Rooms(p)[j] == Rooms(h)[j];
      assert Rooms(h)[|h| - 1] == h[|h| - 1].roomNumber;
    }
  }

  /** Under the invariant, undo erases the newest entry of each parallel vector. */
  lemma UndoneErasesLast(s: State)
    requires Valid(s) && |s.bookingHistory| > 0
    ensures var h := s.bookingHistory; var a := h[|h| - 1];
      && LastIndexOf(Pairs(s.people, s.roomsnums), (a.guestName, a.roomNumber)) == |h| - 1
      && LastIndexOf(s.guestHistory, a.guestName) == |h| - 1
      && RemoveAt(s.people, |h| - 1) == Guests(h[..|h| - 1])
      && RemoveAt(s.roomsnums, |h| - 1) == Rooms(h[..|h| - 1])
  {
    var h := s.bookingHistory;
    HistoryLast(h);
    HistoryAppend(h[..|h| - 1], h[|h| - 1]);
    assert Pairs(s.people, s.roomsnums)[|h| - 1] == (h[|h| - 1].guestName, h[|h| - 1].roomNumber);
  }

  /** Under the invariant, the newest booking's room is booked and some type owns it. */
  lemma LastOwned(s: State)
    requires Valid(s) && |s.bookingHistory| > 0
    ensures var h := s.bookingHistory; var room := h[|h| - 1].roomNumber;
      && room in RoomGuests(h) && room in Elems(Rooms(h))
      && OwningTypeIndex(s.roomTypes, room) < |s.roomTypes|
  {
    var h := s.bookingHistory;
    RoomGuestsKeys(h);
    assert Rooms(h)[|h| - 1] == h[|h| - 1].roomNumber;
  }

  /** Under the invariant, undo leaves every index equal to the one the rest of the stack builds. */
  lemma UndoneIndexes(s: State)
    requires Valid(s) && |s.bookingHistory| > 0
    ensures var h := s.bookingHistory; var p := h[..|h| - 1]; var room := h[|h| - 1].roomNumber;
      var t := OwningTypeIndex(s.roomTypes, room); var u := Undone(s);
      && t < |s.roomTypes|
      && u.roomTypes == s.roomTypes[t := Release(s.roomTypes[t], room)]
      && u.bookingHistory == p
      && u.people == Guests(p) && u.roomsnums == Rooms(p) && u.guestHistory == Guests(p)
      && u.reservations == Ledger(p) && u.guestToRooms == GuestRooms(p)
      && u.occupied == Remove(s.occupied, room)
  {
    var h := s.bookingHistory;
    var p, a := h[..|h| - 1], h[|h| - 1];
    LastOwned(s);
    HistoryLast(h);
    HistoryAppend(p, a);
    LastRoomFresh(h);
    UnrecordLast(p, a);
    UnassignLast(p, a);
    UndoneErasesLast(s);
  }

  /** Under the invariant, freeing the newest booking's room keeps the catalogue sound and every
      type in step with the rooms the rest of the stack holds. */
  lemma UndoneTypes(s: State)
    requires Valid(s) && |s.bookingHistory| > 0
    ensures var h := s.bookingHistory; var p := h[..|h| - 1]; var room := h[|h| - 1].roomNumber;
      var t := OwningTypeIndex(s.roomTypes, room);
      t < |s.roomTypes| &&
      var types := s.roomTypes[t := Release(s.roomTypes[t], room)];
      && CatalogueSound(types) && SameCatalogue(types, s.roomTypes)
      && TypesFollow(types, RoomGuests(p))
      && forall r :: r in Elems(Rooms(p)) ==> exists u :: 0 <= u < |types| && r in types[u].allRoomNumbers
  {
    var h := s.bookingHistory;
    var p, room := h[..|h| - 1], h[|h| - 1].roomNumber;
    var t := OwningTypeIndex(s.roomTypes, room);
    LastOwned(s);
    RoomGuestsPop(h);
    ReleaseKeepsTypes(s.roomTypes, RoomGuests(h), t, room);
    CataloguedAfter(s.roomTypes, s.roomTypes[t := Release(s.roomTypes[t], room)], Elems(Rooms(p)));
  }

  /** Popping the newest booking of a stack with distinct rooms drops exactly its room from the
      room-to-guest map. */
  lemma RoomGuestsPop(h: seq<Action>)
    requires |h| > 0 && NoDup(Rooms(h))
    ensures RoomGuests(h) - {h[|h| - 1].roomNumber} == RoomGuests(h[..|h| - 1])
    ensures Elems(Rooms(h[..|h| - 1])) <= Elems(Rooms(h))
  {
    var p, a := h[..|h| - 1], h[|h| - 1];
    var m := RoomGuests(p);
    assert RoomGuests(h) == m[a.roomNumber := a.guestName];
    LastRoomFresh(h);
    RoomGuestsKeys(p);
    UpdateRemoveFresh(m, a.roomNumber, a.guestName);
    RoomsPop(h);
  }

  /** Adding a fresh key and removing it again gives the map back. */
  lemma UpdateRemoveFresh(m: map<int, string>, k: int, v: string)
    requires k !in m
    ensures m[k := v] - {k} == m
  {
  }

  lemma RoomsPop(h: seq<Action>)
    requires |h| > 0
    ensures Elems(Rooms(h[..|h| - 1])) <= Elems(Rooms(h))
  {
    var p := h[..|h| - 1];
    HistoryLast(h);
    HistoryAppend(p, h[|h| - 1]);
    ElemsConcat(Rooms(p), [h[|h| - 1].roomNumber]);
  }

  /** `undoLastBooking` keeps the invariant. */
  lemma UndoneValid(s: State)
    requires Valid(s)
    ensures Valid(Undone(s)) && SameCatalogue(Undone(s).roomTypes, s.roomTypes)
  {
    var h := s.bookingHistory;
    if |h| > 0 {
      var p, room := h[..|h| - 1], h[|h| - 1].roomNumber;
      UndoneIndexes(s);
      UndoneTypes(s);
      HistoryLast(h);
      HistoryAppend(p, h[|h| - 1]);
      NoDupRemoveAt(Rooms(h), |h| - 1);
      assert RemoveAt(Rooms(h), |h| - 1) == Rooms(p);
    }
  }

  /** `reserveRoom` keeps the invariant. */
  lemma ReservedValid(s: State, option: int, guest: string, startDate: string, startTime: int, durationDays: int)
    requires Valid(s)
    ensures Valid(Reserved(s, option, guest, startDate, startTime, durationDays))
    ensures SameCatalogue(Reserved(s, option, guest, startDate, startTime, durationDays).roomTypes, s.roomTypes)
  {
    if Bookable(s, option) {
      var rt := s.roomTypes[option - 1];
      var room := rt.availableRoomNumbers[0];
      if CanBook(s, room) {
        var cost := rt.pricePerNight * durationDays;
        BookedValid(s, guest, startDate, room, Action(guest, startDate, room, durationDays, rt.pricePerNight, cost));
      }
    }
  }
}

=== FILE: lookups.dfy ===
/** The read-only queries of `Hotel`: `findGuestReservations`, `showReservationsForDate` and the
    in-order walk of the occupied-rooms tree, as the values they display. Under the invariant
    each answer is tied back to the bookings on the undo stack. */
module Lookups {
  import opened Wrappers
  import opened Sequences
  import opened OccupancyTree
  import opened Booking
  import opened Invariant

  // ---------------------------------------------------------------- the queries

  /** `findGuestReservations(guest)`: the guest's room list, or None ("No reservations found"). */
  function FindGuestReservations(s: State, guest: string): Option<seq<int>> {
    if guest in s.guestToRooms then Some(s.guestToRooms[guest]) else None
  }

  /** `showReservationsForDate(date)`: the room-to-guest map of that date, or None when the date
      has no entry or its map is empty ("No reservations found"). */
  function ReservationsOnDate(s: State, date: string): Option<map<int, string>> {
    if date in s.reservations && |s.reservations[date]| > 0 then Some(s.reservations[date]) else None
  }

  /** `displayOccupiedRoomsInOrder`: the keys of the occupied-rooms tree in in-order. */
  function OccupiedRoomsInOrder(s: State): (r: seq<int>)
    ensures Elems(r) == Keys(s.occupied)
  {
    InOrder(s.occupied)
  }

  // ---------------------------------------------------------------- what the answers mean

  /** The rooms the stack `h` books for `guest`, oldest booking first. */
  function RoomsBookedBy(h: seq<Action>, guest: string): (r: seq<int>)
    ensures |r| <= |h|
  {
    if |h| == 0 then []
    else
      var a := h[|h| - 1];
      RoomsBookedBy(h[..|h| - 1], guest) + (if a.guestName == guest then [a.roomNumber] else [])
  }

  /** The guest index holds a guest exactly when the stack books some room for them, and then
      lists exactly those rooms in booking order. */
  lemma {:induction false} GuestRoomsMeaning(h: seq<Action>, guest: string)
    ensures guest in GuestRooms(h) <==> RoomsBookedBy(h, guest) != []
    ensures guest in GuestRooms(h) ==> GuestRooms(h)[guest] == RoomsBookedBy(h, guest)
  {
    if |h| > 0 {
      var p, a := h[..|h| - 1], h[|h| - 1];
      HistoryLast(h);
      HistoryAppend(p, a);
      GuestRoomsMeaning(p, guest);
    }
  }

  /** The stack books a room for `guest` exactly when one of its actions names that guest. */
  lemma {:induction false} RoomsBookedByEmpty(h: seq<Action>, guest: string)
    ensures RoomsBookedBy(h, guest) != [] <==> exists i :: 0 <= i < |h| && h[i].guestName == guest
  {
    if |h| > 0 {
      var p, a := h[..|h| - 1], h[|h| - 1];
      RoomsBookedByEmpty(p, guest);
      if exists i :: 0 <= i < |p| && p[i].guestName == guest {
        var i :| 0 <= i < |p| && p[i].guestName == guest;
        assert h[i] == p[i];
      }
      if exists i :: 0 <= i < |h| && h[i].guestName == guest {
        var i :| 0 <= i < |h| && h[i].guestName == guest;
        if i < |p| {
          assert p[i] == h[i];
        }
      }
    }
  }

  /** Under the invariant `findGuestReservations` answers None exactly for a guest with no
      booking on the stack, and otherwise lists the guest's booked rooms oldest first. */
  lemma FindGuestReservationsMeaning(s: State, guest: string)
    requires Valid(s)
    ensures var r := FindGuestReservations(s, guest);
      && (r.None? <==> forall i :: 0 <= i < |s.bookingHistory| ==> s.bookingHistory[i].guestName != guest)
      && (r.Some? ==> r.value == RoomsBookedBy(s.bookingHistory, guest) && |r.value| > 0)
  {
    GuestRoomsMeaning(s.bookingHistory, guest);
    RoomsBookedByEmpty(s.bookingHistory, guest);
  }

  /** Dropping the newest booking keeps the rooms of the older ones distinct. */
  lemma NoDupPrefix(h: seq<Action>)
    requires |h| > 0 && NoDup(Rooms(h))
    ensures NoDup(Rooms(h[..|h| - 1]))
  {
    var p := h[..|h| - 1];
    forall i, j | 0 <= i < j < |p| ensures Rooms(p)[i] != Rooms(p)[j] {
      assert Rooms(p)[i] == Rooms(h)[i] && Rooms(p)[j] == Rooms(h)[j];
    }
  }

  /** With no room booked twice, the ledger records every booking of the stack under its date
      and room. */
  lemma {:induction false} LedgerRecordsAll(h: seq<Action>)
    requires NoDup(Rooms(h))
    ensures RecordsAll(h, Ledger(h))
  {
    if |h| > 0 {
      var p, a := h[..|h| - 1], h[|h| - 1];
      HistoryLast(h);
      HistoryAppend(p, a);
      NoDupPrefix(h);
      LedgerRecordsAll(p);
      forall i | 0 <= i < |p|
        ensures h[i].date in Ledger(h) && h[i].roomNumber in Ledger(h)[h[i].date]
        ensures Ledger(h)[h[i].date][h[i].roomNumber] == h[i].guestName
      {
        assert h[i] == p[i];
        assert Rooms(h)[i] != Rooms(h)[|h| - 1];
      }
    }
  }

  /** The ledger records nothing but the bookings of the stack. */
  lemma {:induction false} LedgerRecordsOnly(h: seq<Action>)
    ensures RecordsOnly(h, Ledger(h))
  {
    if |h| > 0 {
      var p, a := h[..|h| - 1], h[|h| - 1];
      HistoryLast(h);
      HistoryAppend(p, a);
      LedgerRecordsOnly(p);
      forall d, room | d in Ledger(h) && room in Ledger(h)[d]
        ensures exists i :: 0 <= i < |h| && h[i].date == d && h[i].roomNumber == room
      {
        if d == a.date && room == a.roomNumber {
          assert h[|h| - 1] == a;
        } else {
          assert d in Ledger(p) && room in Ledger(p)[d];
          var i :| 0 <= i < |p| && p[i].date == d && p[i].roomNumber == room;
          assert h[i] == p[i];
        }
      }
    }
  }

  /** Every booking of `h` recorded in `m`, under its date and room. */
  ghost predicate RecordsAll(h: seq<Action>, m: map<string, map<int, string>>) {
    forall i :: 0 <= i < |h| ==>
      h[i].date in m && h[i].roomNumber in m[h[i].date] && m[h[i].date][h[i].roomNumber] == h[i].guestName
  }

  /** Nothing but the bookings of `h` recorded in `m`. */
  ghost predicate RecordsOnly(h: seq<Action>, m: map<string, map<int, string>>) {
    forall d, room :: d in m && room in m[d] ==>
      exists i :: 0 <= i < |h| && h[i].date == d && h[i].roomNumber == room
  }

  /** One date of a ledger that records exactly the bookings of `h`: present with a non-empty
      day exactly when some booking is for it, and then holding exactly those bookings. */
  lemma DayOfRecords(h: seq<Action>, m: map<string, map<int, string>>, date: string)
    requires RecordsAll(h, m) && RecordsOnly(h, m)
    ensures (date in m && |m[date]| > 0) <==> exists i :: 0 <= i < |h| && h[i].date == date
    ensures forall i :: 0 <= i < |h| && h[i].date == date ==>
      date in m && h[i].roomNumber in m[date] && m[date][h[i].roomNumber] == h[i].guestName
    ensures date in m ==> forall room :: room in m[date] ==>
      exists i :: 0 <= i < |h| && h[i].date == date && h[i].roomNumber == room
  {
    if exists i :: 0 <= i < |h| && h[i].date == date {
      var i :| 0 <= i < |h| && h[i].date == date;
      assert h[i].roomNumber in m[date].Keys;
    }
    if date in m && !exists i :: 0 <= i < |h| && h[i].date == date {
      assert forall room :: room !in m[date];
      assert m[date].Keys == {};
    }
  }

  /** Under the invariant `showReservationsForDate` finds a date exactly when some booking on the
      stack is for it, and then shows every such booking's room and guest and nothing else. */
  lemma ReservationsOnDateMeaning(s: State, date: string)
    requires Valid(s)
    ensures var h := s.bookingHistory; var r := ReservationsOnDate(s, date);
      && (r.Some? <==> exists i :: 0 <= i < |h| && h[i].date == date)
      && (r.Some? ==> forall i :: 0 <= i < |h| && h[i].date == date ==>
            h[i].roomNumber in r.value && r.value[h[i].roomNumber] == h[i].guestName)
      && (r.Some? ==> forall room :: room in r.value ==>
            exists i :: 0 <= i < |h| && h[i].date == date && h[i].roomNumber == room)
  {
    LedgerRecordsAll(s.bookingHistory);
    LedgerRecordsOnly(s.bookingHistory);
    DayOfRecords(s.bookingHistory, s.reservations, date);
  }

  /** Under the invariant the in-order walk lists each booked room once, in ascending order. */
  lemma OccupiedRoomsMeaning(s: State)
    requires Valid(s)
    ensures var r := OccupiedRoomsInOrder(s);
      StrictlyAscending(r) && Elems(r) == Elems(s.roomsnums) && |r| == |s.roomsnums|
  {
    var r := OccupiedRoomsInOrder(s);
    AscendingLength(r, s.roomsnums);
  }

  /** A strictly ascending list and a duplicate-free list with the same elements have the same length. */
  lemma AscendingLength(a: seq<int>, b: seq<int>)
    requires StrictlyAscending(a) && NoDup(b) && Elems(a) == Elems(b)
    ensures |a| == |b|
  {
    NoDupCard(b);
    assert NoDup(a) by {
      forall i, j | 0 <= i < j < |a| ensures a[i] != a[j] {
        assert a[i] < a[j];
      }
    }
    NoDupCard(a);
  }
}

=== FILE: occupancy_tree.dfy ===
/** The tree of occupied room numbers (`TreeNode`, `insertRoomInTree`, `findMinNode`,
    `removeRoomFromTree`, `inorderPrint`), as an algebraic datatype. The source rewrites child
    pointers and node keys in place; here every operation returns the new tree. */
module OccupancyTree {
  import opened Sequences

  datatype Tree = Leaf | Node(left: Tree, key: int, right: Tree)

  /** The room numbers held in `t`. */
  function Keys(t: Tree): set<int> {
    match t
    case Leaf => {}
    case Node(l, k, r) => Keys(l) + {k} + Keys(r)
  }

  /** Binary-search ordering: every key in a left subtree is smaller than its node's key, every
      key in a right subtree larger (so no key occurs twice). */
  ghost predicate SearchTree(t: Tree) {
    match t
    case Leaf => true
    case Node(l, k, r) =>
      && SearchTree(l) && SearchTree(r)
      && (forall x :: x in Keys(l) ==> x < k)
      && (forall x :: x in Keys(r) ==> k < x)
  }

  predicate StrictlyAscending(s: seq<int>) {
    forall i, j :: 0 <= i < j < |s| ==> s[i] < s[j]
  }

  /** `insertRoomInTree`: descends by comparison and adds a leaf; an equal key is ignored. */
  function Insert(t: Tree, x: int): (r: Tree)
    ensures Keys(r) == Keys(t) + {x}
    ensures SearchTree(t) ==> SearchTree(r)
  {
    match t
    case Leaf => Node(Leaf, x, Leaf)
    case Node(l, k, rt) =>
      if x < k then Node(Insert(l, x), k, rt)
      else if x > k then Node(l, k, Insert(rt, x))
      else t
  }

  /** The key `findMinNode` stops at: the leftmost node's. */
  function MinKey(t: Tree): (m: int)
    requires t.Node?
    ensures m in Keys(t)
    ensures SearchTree(t) ==> forall x :: x in Keys(t) ==> m <= x
  {
    if t.left.Leaf? then t.key else MinKey(t.left)
  }

  /** `findMinNode`: follows left children while there is one. */
  method FindMinNode(node: Tree) returns (m: Tree)
    ensures node.Leaf? ==> m.Leaf?
    ensures node.Node? ==> m.Node? && m.left.Leaf? && m.key in Keys(node) && m.key == MinKey(node)
    ensures node.Node? && SearchTree(node) ==> forall x :: x in Keys(node) ==> m.key <= x
  {
    m := node;
    while m.Node? && m.left.Node?
      invariant node.Leaf? ==> m.Leaf?
      invariant node.Node? ==> m.Node? && MinKey(m) == MinKey(node)
      decreases m
    {
      m := m.left;
    }
  }

  /** `removeRoomFromTree`: a node with at most one child is replaced by that child; a node with
      two children takes the key of its in-order successor, which is then removed from the right
      subtree. */
  function Remove(t: Tree, x: int): (r: Tree)
    ensures Keys(r) <= Keys(t)
    ensures SearchTree(t) ==> SearchTree(r) && Keys(r) == Keys(t) - {x}
  {
    match t
    case Leaf => Leaf
    case Node(l, k, rt) =>
      if x < k then Node(Remove(l, x), k, rt)
      else if x > k then Node(l, k, Remove(rt, x))
      else if l.Leaf? then rt
      else if rt.Leaf? then l
      else
        var successor := MinKey(rt);
        Node(l, successor, Remove(rt, successor))
  }

  /** The keys in the order `inorderPrint` prints them. */
  function InOrder(t: Tree): (s: seq<int>)
    ensures Elems(s) == Keys(t)
    ensures SearchTree(t) ==> StrictlyAscending(s)
  {
    match t
    case Leaf => []
    case Node(l, k, r) =>
      var left, right := InOrder(l), InOrder(r);
      ElemsConcat(left, [k]);
      ElemsConcat(left + [k], right);
      var s := left + [k] + right;
      assert SearchTree(t) ==> StrictlyAscending(s) by {
        if SearchTree(t) {
          forall i, j | 0 <= i < j < |s| ensures s[i] < s[j] {
            if j < |left| {
            } else if i < |left| {
              assert s[i] in Elems(left);
              assert j == |left| || s[j] in Elems(right);
            } else if i == |left| {
              assert s[j] in Elems(right);
            }
          }
        }
      }
      s
  }

  /** Inserting a key the tree already holds leaves it as it was. */
  lemma {:induction false} InsertPresent(t: Tree, x: int)
    requires SearchTree(t) && x in Keys(t)
    ensures Insert(t, x) == t
  {
    match t
    case Node(l, k, r) =>
      if x < k {
        InsertPresent(l, x);
      } else if x > k {
        InsertPresent(r, x);
      }
  }

  /** Removing a key the tree does not hold leaves it as it was (whatever its ordering). */
  lemma {:induction false} RemoveAbsent(t: Tree, x: int)
    requires x !in Keys(t)
    ensures Remove(t, x) == t
  {
    match t
    case Leaf =>
    case Node(l, k, r) =>
      if x < k {
        RemoveAbsent(l, x);
      } else if x > k {
        RemoveAbsent(r, x);
      }
  }

  /** Removing a key just inserted into a tree that lacked it gives back the same tree:
      the inserted key sits in a leaf, and removal finds it along the same path. */
  lemma {:induction false} RemoveInsertFresh(t: Tree, x: int)
    requires SearchTree(t) && x !in Keys(t)
    ensures Remove(Insert(t, x), x) == t
  {
    match t
    case Leaf =>
    case Node(l, k, r) =>
      if x < k {
        RemoveInsertFresh(l, x);
      } else {
        RemoveInsertFresh(r, x);
      }
  }
}

=== FILE: persistence.dfy ===
/** The record files of `saveToFile` and `loadFromFile`. A file is its sequence of lines;
    `None` stands for a file that cannot be opened. Saving writes, for one stay date, a revenue
    line, a header line and one comma-joined line per detailed record of that date. Loading
    resets the hotel, reads the revenue from the first line, skips a header and replays every
    record line through `bookRoom`. */
module Persistence {
  import opened Wrappers
  import opened Sequences
  import opened Text
  import opened OccupancyTree
  import opened Booking
  import opened Invariant

  // ---------------------------------------------------------------- saveToFile

  /** The detailed records of one stay date, in list order. */
  function OnDate(rs: seq<Reservation>, date: string): (r: seq<Reservation>)
    ensures |r| <= |rs|
  {
    if |rs| == 0 then []
    else
      var last := rs[|rs| - 1];
      OnDate(rs[..|rs| - 1], date) + (if last.stayDate == date then [last] else [])
  }

  /** The records of a date are exactly the records with that stay date. */
  lemma {:induction false} OnDateMembers(rs: seq<Reservation>, date: string)
    ensures forall x :: x in OnDate(rs, date) <==> x in rs && x.stayDate == date
  {
    if |rs| > 0 {
      var p := rs[..|rs| - 1];
      OnDateMembers(p, date);
      assert rs == p + [rs[|rs| - 1]];
    }
  }

  /** The sum of the records' totalCost. */
  function CostSum(rs: seq<Reservation>): int {
    if |rs| == 0 then 0 else CostSum(rs[..|rs| - 1]) + rs[|rs| - 1].totalCost
  }

  const Delim := ','
  const RevenuePrefix := "TOTAL_REVENUE="
  const HeaderFields := ["GuestName", "RoomNumber", "RoomType", "StayDate", "Nights", "CheckInHour",
                         "PricePerNight", "TotalCost"]

  /** The fixed header line. */
  function Header(): string {
    Join(HeaderFields, Delim)
  }

  /** The eight fields of a record, in file order. */
  function Fields(r: Reservation): (f: seq<string>)
    ensures |f| == 8
  {
    [r.guestName, IntToString(r.roomNumber), r.roomType, r.stayDate, IntToString(r.nights),
     IntToString(r.checkInHour), IntToString(r.pricePerNight), IntToString(r.totalCost)]
  }

  /** One record line. */
  function RecordLine(r: Reservation): string {
    Join(Fields(r), Delim)
  }

  function RecordLines(rs: seq<Reservation>): (lines: seq<string>)
    ensures |lines| == |rs|
  {
    seq(|rs|, i requires 0 <= i < |rs| => RecordLine(rs[i]))
  }

  /** The lines `saveToFile(date)` writes, or None when no record has that stay date (no file
      is written). The revenue line carries the sum of those records' costs only. */
  function Saved(s: State, date: string): (file: Option<seq<string>>)
    ensures file.Some? ==> |file.value| == |OnDate(s.reservationsForDay, date)| + 2
  {
    var rs := OnDate(s.reservationsForDay, date);
    if |rs| == 0 then None
    else Some([RevenuePrefix + IntToString(CostSum(rs)), Header()] + RecordLines(rs))
  }

  /** No file is written exactly when no record has the stay date. */
  lemma SavedNone(s: State, date: string)
    ensures Saved(s, date).None? <==> forall x :: x in s.reservationsForDay ==> x.stayDate != date
  {
    var rs := OnDate(s.reservationsForDay, date);
    OnDateMembers(s.reservationsForDay, date);
    if |rs| > 0 {
      assert rs[0] in rs;
    }
  }

  // ---------------------------------------------------------------- loadFromFile: parsing

  /** Whether `line` starts with `prefix` (`line.rfind(prefix, 0) == 0`). */
  predicate HasPrefix(line: string, prefix: string) {
    |prefix| <= |line| && line[..|prefix|] == prefix
  }

  /** The revenue the first line sets: after a `TOTAL_REVENUE=` prefix, after a `$`, or the
      whole line, read as an amount; 0 when that read fails. */
  function RevenueOf(line: string): int {
    if HasPrefix(line, RevenuePrefix) then Stod(line[|RevenuePrefix|..]).GetOr(0)
    else if |line| > 0 && line[0] == '$' then Stod(line[1..]).GetOr(0)
    else Stod(line).GetOr(0)
  }

  /** Whether the second line is the header: eight fields, the first "GuestName". */
  predicate IsHeader(line: string) {
    var fields := Pieces(line, Delim);
    |fields| == 8 && fields[0] == "GuestName"
  }

  /** The record one line yields, None when the line is skipped. Eight fields or more: the full
      format, its numbers read with stoi and stod. Two to seven: the old "guest,room" format,
      dated with the file's date, one night at 15:00 and free. Empty lines, single fields and
      failed number reads are skipped. */
  function ParseLine(line: string, date: string): (r: Option<Reservation>)
    ensures line == "" || |Pieces(line, Delim)| < 2 ==> r.None?
    ensures r.Some? && |Pieces(line, Delim)| < 8 ==>
      r.value == Reservation(Pieces(line, Delim)[0], r.value.roomNumber, "", date, 1, 15, 0, 0)
  {
    if line == "" then None
    else
      var f := Pieces(line, Delim);
      if |f| >= 8 then
        match (Stoi(f[1]), Stoi(f[4]), Stoi(f[5]), Stod(f[6]), Stod(f[7]))
        case (Some(room), Some(nights), Some(hour), Some(price), Some(cost)) =>
          Some(Reservation(f[0], room, f[2], f[3], nights, hour, price, cost))
        case _ => None
      else if |f| >= 2 then
        match Stoi(f[1])
        case Some(room) => Some(Reservation(f[0], room, "", date, 1, 15, 0, 0))
        case None => None
      else None
  }

  // ---------------------------------------------------------------- loadFromFile: replay

  /** One parsed record restored: it is always appended to the detailed records; if `bookRoom`
      succeeds on its stay date the booking is made and its action pushed, else nothing more. */
  function Restore(s: State, r: Reservation): State {
    var s1 := s.(reservationsForDay := s.reservationsForDay + [r]);
    if CanBook(s1, r.roomNumber) then
      var b := Booked(s1, r.guestName, r.stayDate, r.roomNumber);
      b.(bookingHistory := b.bookingHistory
           + [Action(r.guestName, r.stayDate, r.roomNumber, r.nights, r.pricePerNight, r.totalCost)])
    else s1
  }

  function ReplayLine(s: State, line: string, date: string): State {
    match ParseLine(line, date)
    case Some(r) => Restore(s, r)
    case None => s
  }

  /** The record lines replayed in order. */
  function Replayed(s: State, lines: seq<string>, date: string): State {
    if |lines| == 0 then s
    else ReplayLine(Replayed(s, lines[..|lines| - 1], date), lines[|lines| - 1], date)
  }

  /** Where the record lines start: after the header when line 2 is one, else right after line 1. */
  function RecordStart(lines: seq<string>): (k: nat)
    requires |lines| > 0
    ensures 1 <= k <= |lines|
  {
    if |lines| > 1 && IsHeader(lines[1]) then 2 else 1
  }

  /** The state after `loadFromFile(date)` reads `file`: always reset first; a missing or empty
      file leaves it there; otherwise the revenue comes from line 1 and the record lines are
      replayed. */
  function Loaded(s: State, date: string, file: Option<seq<string>>): State {
    var s0 := Reset(s);
    match file
    case None => s0
    case Some(lines) =>
      if |lines| == 0 then s0
      else Replayed(s0.(totalRevenue := RevenueOf(lines[0])), lines[RecordStart(lines)..], date)
  }

  // ---------------------------------------------------------------- properties

  /** A failed restore is still appended to the detailed records, and a restore never touches
      the revenue; the undo stack grows exactly when `bookRoom` succeeds. */
  lemma RestoreEffect(s: State, r: Reservation)
    ensures Restore(s, r).reservationsForDay == s.reservationsForDay + [r]
    ensures Restore(s, r).totalRevenue == s.totalRevenue
    ensures CanBook(s, r.roomNumber) ==>
      Restore(s, r).bookingHistory
      == s.bookingHistory + [Action(r.guestName, r.stayDate, r.roomNumber, r.nights, r.pricePerNight, r.totalCost)]
    ensures !CanBook(s, r.roomNumber) ==>
      Restore(s, r) == s.(reservationsForDay := s.reservationsForDay + [r])
  {
  }

  /** Restoring keeps the invariant and the catalogue. */
  lemma RestoreValid(s: State, r: Reservation)
    requires Valid(s)
    ensures Valid(Restore(s, r)) && SameCatalogue(s.roomTypes, Restore(s, r).roomTypes)
  {
    var s1 := s.(reservationsForDay := s.reservationsForDay + [r]);
    assert Synced(s1);
    if CanBook(s1, r.roomNumber) {
      var a := Action(r.guestName, r.stayDate, r.roomNumber, r.nights, r.pricePerNight, r.totalCost);
      BookedValid(s1, r.guestName, r.stayDate, r.roomNumber, a);
    }
  }

  /** Replaying lines keeps the invariant. */
  lemma {:induction false} ReplayedKeeps(s: State, lines: seq<string>, date: string)
    requires Valid(s)
    ensures Valid(Replayed(s, lines, date))
  {
    if |lines| > 0 {
      var prev := Replayed(s, lines[..|lines| - 1], date);
      ReplayedKeeps(s, lines[..|lines| - 1], date);
      match ParseLine(lines[|lines| - 1], date)
      case Some(r) => RestoreValid(prev, r);
      case None =>
    }
  }

  /** A missing or empty file leaves the reset state. */
  lemma LoadedNothing(s: State, date: string)
    ensures Loaded(s, date, None) == Reset(s) && Loaded(s, date, Some([])) == Reset(s)
  {
  }

  /** Loading keeps the invariant for any sound catalogue, and the revenue is what line 1 says:
      the replayed records never add to it. */
  lemma LoadedValid(s: State, date: string, file: Option<seq<string>>)
    requires CatalogueSound(s.roomTypes)
    ensures Valid(Loaded(s, date, file))
    ensures file.Some? && |file.value| > 0 ==> Loaded(s, date, file).totalRevenue == RevenueOf(file.value[0])
  {
    ResetValid(s);
    if file.Some? && |file.value| > 0 {
      var lines := file.value;
      var s0 := Reset(s).(totalRevenue := RevenueOf(lines[0]));
      assert Valid(s0) by {
        assert Synced(s0);
      }
      ReplayedKeeps(s0, lines[RecordStart(lines)..], date);
      ReplayedRevenue(s0, lines[RecordStart(lines)..], date);
    }
  }

  /** Each of the three forms of line 1 reads back the amount written in it. */
  lemma RevenueLineForms(n: int)
    ensures RevenueOf(RevenuePrefix + IntToString(n)) == n
    ensures RevenueOf("$" + IntToString(n)) == n
    ensures RevenueOf(IntToString(n)) == n
  {
    var d := IntToString(n);
    StodOfIntToString(n);
    PrefixedRevenue(RevenuePrefix, d);
    DollarRevenue(d);
    BareRevenue(d);
  }

  lemma PrefixedRevenue(prefix: string, d: string)
    requires prefix == RevenuePrefix
    ensures RevenueOf(prefix + d) == Stod(d).GetOr(0)
  {
    assert (prefix + d)[..|prefix|] == prefix;
    assert (prefix + d)[|prefix|..] == d;
  }

  lemma DollarRevenue(d: string)
    ensures RevenueOf("$" + d) == Stod(d).GetOr(0)
  {
    assert ("$" + d)[1..] == d;
    assert !HasPrefix("$" + d, RevenuePrefix) by {
      assert ("$" + d)[0] != RevenuePrefix[0];
    }
  }

  lemma BareRevenue(d: string)
    requires |d| > 0 && (IsDigit(d[0]) || d[0] == '-')
    ensures RevenueOf(d) == Stod(d).GetOr(0)
  {
    assert !HasPrefix(d, RevenuePrefix) by {
      assert d[0] != RevenuePrefix[0];
    }
  }

  /** The header line is recognised as one. */
  lemma HeaderRecognised()
    ensures IsHeader(Header())
  {
    PiecesOfJoin(HeaderFields, Delim);
  }

  /** A record fit for the file: no comma and no line break in a text field, and the stoi-read
      numbers within 32 bits. */
  ghost predicate Storable(r: Reservation) {
    && Delim !in r.guestName && Delim !in r.roomType && Delim !in r.stayDate
    && '\n' !in r.guestName && '\n' !in r.roomType && '\n' !in r.stayDate
    && IntMin <= r.roomNumber <= IntMax && IntMin <= r.nights <= IntMax && IntMin <= r.checkInHour <= IntMax
  }

  /** A saved record line parses back to the same record. */
  lemma RecordLineRoundTrip(r: Reservation, date: string)
    requires Storable(r)
    ensures ParseLine(RecordLine(r), date) == Some(r)
  {
    var f := Fields(r);
    forall k | 0 <= k < 8 ensures Delim !in f[k] {
      if k == 1 || k >= 4 {
        assert forall j :: 0 <= j < |f[k]| ==> IsDigit(f[k][j]) || f[k][j] == '-';
      }
    }
    PiecesOfJoin(f, Delim);
    var line := RecordLine(r);
    assert Pieces(line, Delim) == f;
    assert line != "" by {
      assert |Pieces(line, Delim)| == 8;
    }
    StoiOfIntToString(r.roomNumber);
    StoiOfIntToString(r.nights);
    StoiOfIntToString(r.checkInHour);
    StodOfIntToString(r.pricePerNight);
    StodOfIntToString(r.totalCost);
  }

  /** The records the lines yield, in order; skipped lines yield none. */
  function Parsed(lines: seq<string>, date: string): (rs: seq<Reservation>)
    ensures |rs| <= |lines|
  {
    Present(seq(|lines|, i requires 0 <= i < |lines| => ParseLine(lines[i], date)))
  }

  /** The values present in a list of optional records, in order. */
  function Present(os: seq<Option<Reservation>>): (rs: seq<Reservation>)
    ensures |rs| <= |os|
  {
    if |os| == 0 then []
    else Present(os[..|os| - 1]) + (if os[|os| - 1].Some? then [os[|os| - 1].value] else [])
  }

  /** Replaying one line appends the record it yields, if any. */
  lemma ReplayLineAppends(s: State, line: string, date: string)
    ensures var r := ParseLine(line, date);
      ReplayLine(s, line, date).reservationsForDay
      == s.reservationsForDay + (if r.Some? then [r.value] else [])
  {
    match ParseLine(line, date)
    case Some(r) => RestoreEffect(s, r);
    case None =>
  }

  /** Replaying lines appends exactly the records they yield, whether or not each booking
      succeeds. */
  lemma {:induction false} ReplayedAppends(s: State, lines: seq<string>, date: string)
    ensures Replayed(s, lines, date).reservationsForDay == s.reservationsForDay + Parsed(lines, date)
  {
    if |lines| > 0 {
      var p := lines[..|lines| - 1];
      ParsedSnoc(lines, date);
      ReplayedAppends(s, p, date);
      ReplayLineAppends(Replayed(s, p, date), lines[|lines| - 1], date);
    }
  }

  /** The records of some lines are those of all but the last, then the last one's if it yields one. */
  lemma ParsedSnoc(lines: seq<string>, date: string)
    requires |lines| > 0
    ensures var r := ParseLine(lines[|lines| - 1], date);
      Parsed(lines, date) == Parsed(lines[..|lines| - 1], date) + (if r.Some? then [r.value] else [])
  {
    var p := lines[..|lines| - 1];
    var os := seq(|lines|, i requires 0 <= i < |lines| => ParseLine(lines[i], date));
    assert os[..|lines| - 1] == seq(|p|, i requires 0 <= i < |p| => ParseLine(p[i], date));
  }

  /** The saved lines of records fit for the file yield those records back. */
  lemma ParsedRecordLines(rs: seq<Reservation>, date: string)
    requires forall i :: 0 <= i < |rs| ==> Storable(rs[i])
    ensures Parsed(RecordLines(rs), date) == rs
  {
    var lines := RecordLines(rs);
    var os := seq(|lines|, i requires 0 <= i < |lines| => ParseLine(lines[i], date));
    forall i | 0 <= i < |rs| ensures os[i] == Some(rs[i]) {
      RecordLineRoundTrip(rs[i], date);
    }
    PresentEach(os, rs);
  }

  /** Optional records that are all present give their values, in order. */
  lemma {:induction false} PresentEach(os: seq<Option<Reservation>>, rs: seq<Reservation>)
    requires |os| == |rs|
    requires forall i :: 0 <= i < |os| ==> os[i] == Some(rs[i])
    ensures Present(os) == rs
  {
    if |os| > 0 {
      var n := |os| - 1;
      PresentEach(os[..n], rs[..n]);
      assert rs[..n] + [rs[n]] == rs;
    }
  }

  /** Saving a date and loading the file back restores exactly that date's detailed records,
      in order, and sets the revenue to their summed cost (not the revenue of the session that
      saved them), provided every record is fit for the file. */
  lemma SaveLoadRoundTrip(s: State, t: State, date: string)
    requires Saved(s, date).Some?
    requires forall x :: x in s.reservationsForDay && x.stayDate == date ==> Storable(x)
    ensures var rs := OnDate(s.reservationsForDay, date); var u := Loaded(t, date, Saved(s, date));
      u.reservationsForDay == rs && u.totalRevenue == CostSum(rs)
  {
    var rs := OnDate(s.reservationsForDay, date);
    var s0 := Reset(t).(totalRevenue := CostSum(rs));
    SavedFileReplays(s, t, date);
    OnDateMembers(s.reservationsForDay, date);
    forall i | 0 <= i < |rs| ensures Storable(rs[i]) {
      assert rs[i] in rs;
    }
    ReplayedAppends(s0, RecordLines(rs), date);
    ParsedRecordLines(rs, date);
    ReplayedRevenue(s0, RecordLines(rs), date);
  }

  /** Loading a saved file takes its revenue line and skips its header, replaying exactly the
      record lines. */
  lemma SavedFileReplays(s: State, t: State, date: string)
    requires Saved(s, date).Some?
    ensures var rs := OnDate(s.reservationsForDay, date);
      Loaded(t, date, Saved(s, date)) == Replayed(Reset(t).(totalRevenue := CostSum(rs)), RecordLines(rs), date)
  {
    var rs := OnDate(s.reservationsForDay, date);
    HeaderRecognised();
    RevenueLineForms(CostSum(rs));
    LoadedHeaded(t, date, RevenuePrefix + IntToString(CostSum(rs)), Header(), RecordLines(rs));
  }

  /** A file whose second line is a header loads the revenue of its first line and replays the
      lines after the header. */
  lemma LoadedHeaded(t: State, date: string, first: string, second: string, records: seq<string>)
    requires IsHeader(second)
    ensures Loaded(t, date, Some([first, second] + records))
      == Replayed(Reset(t).(totalRevenue := RevenueOf(first)), records, date)
  {
    var lines := [first, second] + records;
    assert lines[1] == second;
    assert lines[2..] == records;
  }

  /** Replaying lines never changes the revenue. */
  lemma {:induction false} ReplayedRevenue(s: State, lines: seq<string>, date: string)
    ensures Replayed(s, lines, date).totalRevenue == s.totalRevenue
  {
    if |lines| > 0 {
      ReplayedRevenue(s, lines[..|lines| - 1], date);
    }
  }

  /** A line in the old two-field format is dated with the file's date, one night at 15:00 and
      costs nothing. */
  lemma LegacyLine(guest: string, room: int, date: string)
    requires Delim !in guest && IntMin <= room <= IntMax
    ensures ParseLine(guest + [Delim] + IntToString(room), date)
      == Some(Reservation(guest, room, "", date, 1, 15, 0, 0))
  {
    var d := IntToString(room);
    assert Delim !in d by {
      assert forall j :: 0 <= j < |d| ==> IsDigit(d[j]) || d[j] == '-';
    }
    PiecesOfJoin([guest, d], Delim);
    assert Join([guest, d], Delim) == guest + [Delim] + d;
    StoiOfIntToString(room);
  }

  /** A comma in the room type breaks the round trip: the line splits into one field more, so
      the type is cut at the comma and its tail is read as the stay date. This hits two of the
      four seeded names, "Standard Room, Scenic" and "Standard Rooms, Courtyard". */
  lemma CommaInTypeName(r: Reservation, left: string, right: string, date: string)
    requires Storable(r.(roomType := ""))
    requires r.roomType == left + [Delim] + right && Delim !in left && Delim !in right
    ensures var p := ParseLine(RecordLine(r), date);
      p != Some(r) && (p.Some? ==> p.value.roomType == left && p.value.stayDate == right)
  {
    var f := Fields(r);
    var g := [f[0], f[1], left, right] + f[3..];
    SplitSecondField(f, left, right);
    forall k | 0 <= k < |g| ensures Delim !in g[k] {
      if k == 1 || k >= 5 {
        assert forall j :: 0 <= j < |g[k]| ==> IsDigit(g[k][j]) || g[k][j] == '-';
      }
    }
    PiecesOfJoin(g, Delim);
    assert |Pieces(RecordLine(r), Delim)| == 9;
    assert RecordLine(r) != "";
    assert Delim in r.roomType by {
      assert r.roomType[|left|] == Delim;
    }
  }

  /** The record line of a type name with one comma is the line of nine fields. */
  lemma SplitSecondField(f: seq<string>, left: string, right: string)
    requires |f| == 8 && f[2] == left + [Delim] + right
    ensures Join(f, Delim) == Join([f[0], f[1], left, right] + f[3..], Delim)
  {
    var tail := [f[2]] + f[3..];
    assert f == [f[0], f[1]] + tail;
    assert f[1..] == [f[1]] + tail;
    assert f[1..][1..] == tail;
    var g := [f[0], f[1], left, right] + f[3..];
    assert g[1..] == [f[1], left, right] + f[3..];
    JoinSplitsField(f[1], left, right, f[3..], Delim);
    assert [f[1], left + [Delim] + right] + f[3..] == f[1..];
  }
}

=== FILE: properties.dfy ===
/** What the booking operations promise, proved from the invariant: which rooms `bookRoom` and
    `reserveRoom` take and what every index records, what undo gives back, that a reservation
    undone at once restores the state (the free list up to order), and that undo is
    last-in-first-out. */
module Properties {
  import opened Sequences
  import opened OccupancyTree
  import opened Booking
  import opened Invariant

  // ---------------------------------------------------------------- where a room lives

  /** Under the invariant a free room of type `t` is found in `t` by both of the engine's type
      searches, and nobody holds it. */
  lemma FreeRoomOwner(s: State, t: nat, room: int)
    requires Valid(s) && t < |s.roomTypes| && room in s.roomTypes[t].availableRoomNumbers
    ensures FreeTypeIndex(s.roomTypes, room) == t
    ensures OwningTypeIndex(s.roomTypes, room) == t
    ensures room !in RoomGuests(s.bookingHistory) && room !in Keys(s.occupied)
  {
    var types := s.roomTypes;
    assert TypeValid(types[t]);
    assert room in Elems(types[t].availableRoomNumbers);
    assert room in Elems(types[t].allRoomNumbers);
    forall u | 0 <= u < t
      ensures room !in types[u].availableRoomNumbers && room !in types[u].allRoomNumbers
    {
      assert Elems(types[u].allRoomNumbers) !! Elems(types[t].allRoomNumbers);
      assert TypeValid(types[u]);
      assert Elems(types[u].availableRoomNumbers) <= Elems(types[u].allRoomNumbers);
    }
    RoomGuestsKeys(s.bookingHistory);
    assert room !in types[t].guests;
  }

  /** The type undo searches for depends only on the types' full room lists. */
  lemma {:induction false} OwningTypeIndexSame(a: seq<RoomType>, b: seq<RoomType>, room: int)
    requires |a| == |b| && forall t :: 0 <= t < |a| ==> a[t].allRoomNumbers == b[t].allRoomNumbers
    ensures OwningTypeIndex(a, room) == OwningTypeIndex(b, room)
  {
    if |a| > 0 && room !in a[0].allRoomNumbers {
      OwningTypeIndexSame(a[1..], b[1..], room);
    }
  }

  // ---------------------------------------------------------------- bookRoom

  /** `bookRoom` succeeds exactly when some type's free list holds the room, and a failed call
      changes nothing. It never touches the revenue, the undo stack or the detailed records.
      On success, under the invariant, the room was unoccupied; it leaves its type's free list
      and joins the tree, the count drops by one, the guest and room are appended to the
      history lists, and the type, the date's ledger and the guest's list record the guest;
      every other type is untouched. */
  lemma BookOutcome(s: State, guest: string, date: string, room: int)
    requires Valid(s)
    ensures CanBook(s, room) <==> exists t :: 0 <= t < |s.roomTypes| && room in s.roomTypes[t].availableRoomNumbers
    ensures !CanBook(s, room) ==> Booked(s, guest, date, room) == s
    ensures var b := Booked(s, guest, date, room);
      b.totalRevenue == s.totalRevenue && b.bookingHistory == s.bookingHistory
      && b.reservationsForDay == s.reservationsForDay
    ensures CanBook(s, room) ==>
      var b := Booked(s, guest, date, room);
      b.people == s.people + [guest] && b.roomsnums == s.roomsnums + [room]
      && b.guestHistory == s.guestHistory + [guest]
    ensures CanBook(s, room) ==>
      var b := Booked(s, guest, date, room); var t := FreeTypeIndex(s.roomTypes, room);
      var before, after := s.roomTypes[t], b.roomTypes[t];
      && room !in Keys(s.occupied) && Keys(b.occupied) == Keys(s.occupied) + {room}
      && Elems(after.availableRoomNumbers) == Elems(before.availableRoomNumbers) - {room}
      && room !in after.availableRoomNumbers
      && after.availableRooms == before.availableRooms - 1
      && after.guests == before.guests[room := guest]
      && DayOf(b.reservations, date) == DayOf(s.reservations, date)[room := guest]
      && RoomsOf(b.guestToRooms, guest) == RoomsOf(s.guestToRooms, guest) + [room]
      && (forall u :: 0 <= u < |s.roomTypes| && u != t ==> b.roomTypes[u] == s.roomTypes[u])
  {
    if CanBook(s, room) {
      var t := FreeTypeIndex(s.roomTypes, room);
      var avail := s.roomTypes[t].availableRoomNumbers;
      FreeRoomOwner(s, t, room);
      assert TypeValid(s.roomTypes[t]);
      NoDupRemoveAt(avail, IndexOf(avail, room));
    } else {
      forall t | 0 <= t < |s.roomTypes| ensures room !in s.roomTypes[t].availableRoomNumbers {
      }
    }
  }

  // ---------------------------------------------------------------- reserveRoom

  /** The state after a `reserveRoom` whose front room books in the chosen type, written out. */
  function ReservedFront(s: State, option: int, guest: string, date: string, hour: int, nights: int): State
    requires 1 <= option <= |s.roomTypes| && |s.roomTypes[option - 1].availableRoomNumbers| > 0
  {
    var rt := s.roomTypes[option - 1];
    var room := rt.availableRoomNumbers[0];
    var cost := rt.pricePerNight * nights;
    s.(roomTypes := s.roomTypes[option - 1 := Occupy(rt, guest, room)],
       reservations := Record(s.reservations, date, room, guest),
       people := s.people + [guest],
       roomsnums := s.roomsnums + [room],
       guestToRooms := AddRoom(s.guestToRooms, guest, room),
       guestHistory := s.guestHistory + [guest],
       occupied := Insert(s.occupied, room),
       totalRevenue := s.totalRevenue + cost,
       bookingHistory := s.bookingHistory + [Action(guest, date, room, nights, rt.pricePerNight, cost)],
       reservationsForDay := s.reservationsForDay
         + [Reservation(guest, room, rt.name, date, nights, hour, rt.pricePerNight, cost)])
  }

  lemma ReservedIs(s: State, option: int, guest: string, date: string, hour: int, nights: int)
    requires Bookable(s, option)
    requires FreeTypeIndex(s.roomTypes, s.roomTypes[option - 1].availableRoomNumbers[0]) == option - 1
    ensures Reserved(s, option, guest, date, hour, nights) == ReservedFront(s, option, guest, date, hour, nights)
  {
  }

  /** `reserveRoom` changes nothing for an option outside 1..|types| or a type with no free
      room. Otherwise, under the invariant, booking the front of the free list never fails: the
      room was unoccupied and joins the tree, it leaves the front of the list, the price is
      pricePerNight * nights, the revenue grows by it, exactly one action is pushed and exactly
      one detailed record appended. */
  lemma ReserveOutcome(s: State, option: int, guest: string, date: string, hour: int, nights: int)
    requires Valid(s)
    ensures !Bookable(s, option) ==> Reserved(s, option, guest, date, hour, nights) == s
    ensures Bookable(s, option) ==>
      var rt := s.roomTypes[option - 1]; var room := rt.availableRoomNumbers[0];
      var cost := rt.pricePerNight * nights; var r := Reserved(s, option, guest, date, hour, nights);
      && room !in Keys(s.occupied) && Keys(r.occupied) == Keys(s.occupied) + {room}
      && r.roomTypes[option - 1].availableRoomNumbers == rt.availableRoomNumbers[1..]
      && r.roomTypes[option - 1].availableRooms == rt.availableRooms - 1
      && r.totalRevenue == s.totalRevenue + cost
      && r.bookingHistory == s.bookingHistory + [Action(guest, date, room, nights, rt.pricePerNight, cost)]
      && r.reservationsForDay
         == s.reservationsForDay + [Reservation(guest, room, rt.name, date, nights, hour, rt.pricePerNight, cost)]
      && DayOf(r.reservations, date) == DayOf(s.reservations, date)[room := guest]
  {
    if Bookable(s, option) {
      var rt := s.roomTypes[option - 1];
      var room := rt.availableRoomNumbers[0];
      FreeRoomOwner(s, option - 1, room);
      ReservedIs(s, option, guest, date, hour, nights);
      ReserveRevenue(s, option, guest, date, hour, nights);
      assert IndexOf(rt.availableRoomNumbers, room) == 0;
      assert RemoveAt(rt.availableRoomNumbers, 0) == rt.availableRoomNumbers[1..];
    }
  }

  /** Under the invariant a bookable `reserveRoom` always adds pricePerNight * nights to the revenue. */
  lemma ReserveRevenue(s: State, option: int, guest: string, date: string, hour: int, nights: int)
    requires Valid(s) && Bookable(s, option)
    ensures Reserved(s, option, guest, date, hour, nights).totalRevenue
            == s.totalRevenue + s.roomTypes[option - 1].pricePerNight * nights
  {
    FreeRoomOwner(s, option - 1, s.roomTypes[option - 1].availableRoomNumbers[0]);
    ReservedIs(s, option, guest, date, hour, nights);
  }

  // ---------------------------------------------------------------- undoLastBooking

  /** Undo on an empty stack changes nothing. Otherwise, under the invariant, the room of the
      top action always has a type (the "type not found" branch is unreachable); the action is
      popped, the revenue drops by its cost floored at 0, the room is freed back into its type's
      list and count and leaves the tree, the date's ledger and the guest's list, and the newest
      (guest, room) pair and history entry go, leaving those of the older bookings. What happens
      to the detailed records is stated by `UndoDropsLastStay`. */
  lemma UndoOutcome(s: State)
    requires Valid(s)
    ensures |s.bookingHistory| == 0 ==> Undone(s) == s
    ensures |s.bookingHistory| > 0 ==>
      var h := s.bookingHistory; var a := h[|h| - 1]; var room := a.roomNumber;
      var t := OwningTypeIndex(s.roomTypes, room); var u := Undone(s);
      && t < |s.roomTypes|
      && u.bookingHistory == h[..|h| - 1]
      && u.totalRevenue == (if s.totalRevenue - a.totalCost < 0 then 0 else s.totalRevenue - a.totalCost)
      && room in Keys(s.occupied) && Keys(u.occupied) == Keys(s.occupied) - {room}
      && room in u.roomTypes[t].availableRoomNumbers && room !in u.roomTypes[t].guests
      && u.roomTypes[t].availableRooms == s.roomTypes[t].availableRooms + 1
      && room !in DayOf(u.reservations, a.date)
      && room !in RoomsOf(u.guestToRooms, a.guestName)
      && |u.people| == |s.people| - 1 && |u.roomsnums| == |s.roomsnums| - 1
      && u.people == Guests(h[..|h| - 1]) && u.roomsnums == Rooms(h[..|h| - 1])
      && u.guestHistory == Guests(h[..|h| - 1])
  {
    var h := s.bookingHistory;
    if |h| > 0 {
      var p, room := h[..|h| - 1], h[|h| - 1].roomNumber;
      var t := OwningTypeIndex(s.roomTypes, room);
      LastOwned(s);
      UndoneIndexes(s);
      ReleaseKeepsTypes(s.roomTypes, RoomGuests(h), t, room);
      LastRoomFresh(h);
      LedgerRooms(p);
      GuestRoomsRooms(p);
    }
  }

  /** A detailed record for the stay of action `a`: same guest, room and date. */
  predicate StayOf(r: Reservation, a: Action) {
    r.guestName == a.guestName && r.roomNumber == a.roomNumber && r.stayDate == a.date
  }

  /** Under the invariant undo erases the newest detailed record for the popped action's stay
      (one copy, the rest in order) and leaves the records alone when none matches. */
  lemma UndoDropsLastStay(s: State)
    requires Valid(s) && |s.bookingHistory| > 0
    ensures var a := s.bookingHistory[|s.bookingHistory| - 1]; var rs := s.reservationsForDay;
      && ((forall k :: 0 <= k < |rs| ==> !StayOf(rs[k], a)) ==> Undone(s).reservationsForDay == rs)
      && (forall k :: 0 <= k < |rs| && StayOf(rs[k], a) && (forall m :: k < m < |rs| ==> !StayOf(rs[m], a)) ==>
            && Undone(s).reservationsForDay == rs[..k] + rs[k + 1..]
            && multiset(Undone(s).reservationsForDay) + multiset{rs[k]} == multiset(rs))
  {
    LastOwned(s);
    UndoneStays(s, s.bookingHistory[|s.bookingHistory| - 1]);
  }

  /** When the popped action `a`'s room has a type, undo erases the last detailed record for
      its stay. */
  lemma UndoneStays(s: State, a: Action)
    requires |s.people| == |s.roomsnums| && |s.bookingHistory| > 0 && a == s.bookingHistory[|s.bookingHistory| - 1]
    requires OwningTypeIndex(s.roomTypes, a.roomNumber) < |s.roomTypes|
    ensures var rs := s.reservationsForDay;
      && ((forall k :: 0 <= k < |rs| ==> !StayOf(rs[k], a)) ==> Undone(s).reservationsForDay == rs)
      && (forall k :: 0 <= k < |rs| && StayOf(rs[k], a) && (forall m :: k < m < |rs| ==> !StayOf(rs[m], a)) ==>
            && Undone(s).reservationsForDay == rs[..k] + rs[k + 1..]
            && multiset(Undone(s).reservationsForDay) + multiset{rs[k]} == multiset(rs))
  {
    var rs := s.reservationsForDay;
    assert Undone(s).reservationsForDay == EraseFound(rs, LastIndexOf(Stays(rs), (a.guestName, a.roomNumber, a.date)));
    LastStayErased(rs, a);
  }

  /** Erasing at the backward search's index for the stay of `a` removes the last matching record. */
  lemma LastStayErased(rs: seq<Reservation>, a: Action)
    ensures var e := EraseFound(rs, LastIndexOf(Stays(rs), (a.guestName, a.roomNumber, a.date)));
      && ((forall k :: 0 <= k < |rs| ==> !StayOf(rs[k], a)) ==> e == rs)
      && (forall k :: 0 <= k < |rs| && StayOf(rs[k], a) && (forall m :: k < m < |rs| ==> !StayOf(rs[m], a)) ==>
            && e == rs[..k] + rs[k + 1..]
            && multiset(e) + multiset{rs[k]} == multiset(rs))
  {
    var key := (a.guestName, a.roomNumber, a.date);
    var j := LastIndexOf(Stays(rs), key);
    forall k | 0 <= k < |rs| && StayOf(rs[k], a) && (forall m :: k < m < |rs| ==> !StayOf(rs[m], a))
      ensures EraseFound(rs, j) == rs[..k] + rs[k + 1..]
      ensures multiset(EraseFound(rs, j)) + multiset{rs[k]} == multiset(rs)
    {
      assert Stays(rs)[k] == key;
      assert j == k;
      assert rs == rs[..k] + [rs[k]] + rs[k + 1..];
    }
    if forall k :: 0 <= k < |rs| ==> !StayOf(rs[k], a) {
      if j >= 0 {
        assert StayOf(rs[j], a);
      }
    }
  }

  // ---------------------------------------------------------------- reserve then undo

  /** `s` with the front room of type `t`'s free list moved to the back; `s` itself when `t`
      names no type or a type with no free room. */
  function Rotated(s: State, t: int): (r: State)
    ensures |r.roomTypes| == |s.roomTypes|
  {
    if 0 <= t < |s.roomTypes| && |s.roomTypes[t].availableRoomNumbers| > 0 then
      var rt := s.roomTypes[t];
      var avail := rt.availableRoomNumbers;
      s.(roomTypes := s.roomTypes[t := rt.(availableRoomNumbers := avail[1..] + [avail[0]])])
    else s
  }

  /** Booking the front room and freeing it again gives back the type with that room moved to
      the back of its free list. */
  lemma OccupyRelease(rt: RoomType, guest: string)
    requires TypeValid(rt) && |rt.availableRoomNumbers| > 0
    ensures var avail := rt.availableRoomNumbers;
      Release(Occupy(rt, guest, avail[0]), avail[0]) == rt.(availableRoomNumbers := avail[1..] + [avail[0]])
  {
    var avail := rt.availableRoomNumbers;
    assert avail[0] in Elems(avail);
    assert avail[0] !in rt.guests;
    assert rt.guests[avail[0] := guest] - {avail[0]} == rt.guests;
    assert avail[0] !in avail[1..] by {
      forall j | 0 <= j < |avail[1..]| ensures avail[1..][j] != avail[0] {
        assert avail[1..][j] == avail[j + 1];
      }
    }
    assert RemoveAt(avail, 0) == avail[1..];
  }

  /** When the newest entries of the parallel vectors, the guest history and the detailed
      records all belong to the top action, undo erases exactly those entries and pops the
      action. */
  lemma UndoPopsNewest(r: State, base: State, a: Action, res: Reservation)
    requires r.bookingHistory == base.bookingHistory + [a]
    requires |base.people| == |base.roomsnums|
    requires r.people == base.people + [a.guestName] && r.roomsnums == base.roomsnums + [a.roomNumber]
    requires r.guestHistory == base.guestHistory + [a.guestName]
    requires r.reservationsForDay == base.reservationsForDay + [res]
    requires res.guestName == a.guestName && res.roomNumber == a.roomNumber && res.stayDate == a.date
    requires OwningTypeIndex(r.roomTypes, a.roomNumber) < |r.roomTypes|
    ensures var u := Undone(r); var t := OwningTypeIndex(r.roomTypes, a.roomNumber);
      && u.bookingHistory == base.bookingHistory
      && u.people == base.people && u.roomsnums == base.roomsnums
      && u.guestHistory == base.guestHistory && u.reservationsForDay == base.reservationsForDay
      && u.totalRevenue == (if r.totalRevenue - a.totalCost < 0 then 0 else r.totalRevenue - a.totalCost)
      && u.roomTypes == r.roomTypes[t := Release(r.roomTypes[t], a.roomNumber)]
      && u.reservations == Unrecord(r.reservations, a.date, a.roomNumber)
      && u.guestToRooms == Unassign(r.guestToRooms, a.guestName, a.roomNumber)
      && u.occupied == Remove(r.occupied, a.roomNumber)
  {
    var n := |base.people|;
    assert r.bookingHistory[..|base.bookingHistory|] == base.bookingHistory;
    assert Pairs(r.people, r.roomsnums)[n] == (a.guestName, a.roomNumber);
    assert Stays(r.reservationsForDay)[|base.reservationsForDay|] == (a.guestName, a.roomNumber, a.date);
    assert RemoveAt(r.people, n) == base.people;
    assert RemoveAt(r.roomsnums, n) == base.roomsnums;
    assert RemoveAt(r.guestHistory, |base.guestHistory|) == base.guestHistory;
    assert RemoveAt(r.reservationsForDay, |base.reservationsForDay|) == base.reservationsForDay;
  }

  lemma SeqUpdateTwice<T>(s: seq<T>, i: nat, x: T, y: T)
    requires i < |s|
    ensures s[i := x][i := y] == s[i := y]
  {
  }

  /** Undo right after a `reserveRoom` that booked the front room pops what it pushed and
      applies the inverse of each index update. */
  lemma UndoAfterReserveSteps(s: State, option: int, guest: string, date: string, hour: int, nights: int)
    requires Bookable(s, option) && |s.people| == |s.roomsnums|
    requires OwningTypeIndex(s.roomTypes, s.roomTypes[option - 1].availableRoomNumbers[0]) == option - 1
    ensures var t := option - 1; var rt := s.roomTypes[t]; var room := rt.availableRoomNumbers[0];
      var u := Undone(ReservedFront(s, option, guest, date, hour, nights));
      && u.bookingHistory == s.bookingHistory
      && u.people == s.people && u.roomsnums == s.roomsnums
      && u.guestHistory == s.guestHistory && u.reservationsForDay == s.reservationsForDay
      && u.totalRevenue == (if s.totalRevenue < 0 then 0 else s.totalRevenue)
      && u.roomTypes == s.roomTypes[t := Release(Occupy(rt, guest, room), room)]
      && u.reservations == Unrecord(Record(s.reservations, date, room, guest), date, room)
      && u.guestToRooms == Unassign(AddRoom(s.guestToRooms, guest, room), guest, room)
      && u.occupied == Remove(Insert(s.occupied, room), room)
  {
    var t := option - 1;
    var rt := s.roomTypes[t];
    var room := rt.availableRoomNumbers[0];
    var cost := rt.pricePerNight * nights;
    var r := ReservedFront(s, option, guest, date, hour, nights);
    OwningTypeIndexSame(r.roomTypes, s.roomTypes, room);
    UndoPopsNewest(r, s, Action(guest, date, room, nights, rt.pricePerNight, cost),
                   Reservation(guest, room, rt.name, date, nights, hour, rt.pricePerNight, cost));
    assert r.roomTypes[t] == Occupy(rt, guest, room);
    assert r.roomTypes[t := Release(r.roomTypes[t], room)] == s.roomTypes[t := Release(Occupy(rt, guest, room), room)] by {
      SeqUpdateTwice(s.roomTypes, t, Occupy(rt, guest, room), Release(Occupy(rt, guest, room), room));
    }
  }

  /** What undo needs to know about the state before a `reserveRoom` to give it back: the
      front room is owned by the chosen type and held by nobody, and the ledger and the guest
      index have no empty entries and do not mention it. */
  ghost predicate ReserveReady(s: State, option: int, guest: string, date: string) {
    && Bookable(s, option) && |s.people| == |s.roomsnums|
    && var room := s.roomTypes[option - 1].availableRoomNumbers[0];
    && FreeTypeIndex(s.roomTypes, room) == option - 1
    && OwningTypeIndex(s.roomTypes, room) == option - 1
    && TypeValid(s.roomTypes[option - 1])
    && SearchTree(s.occupied) && room !in Keys(s.occupied)
    && (forall d :: d in s.reservations ==> |s.reservations[d]| > 0)
    && room !in DayOf(s.reservations, date)
    && (forall g :: g in s.guestToRooms ==> |s.guestToRooms[g]| > 0)
    && room !in RoomsOf(s.guestToRooms, guest)
  }

  /** The front room of a bookable type is owned by that type and held by nobody. */
  lemma FrontRoomFree(s: State, option: int)
    requires Valid(s) && Bookable(s, option)
    ensures var room := s.roomTypes[option - 1].availableRoomNumbers[0];
      && FreeTypeIndex(s.roomTypes, room) == option - 1
      && OwningTypeIndex(s.roomTypes, room) == option - 1
      && TypeValid(s.roomTypes[option - 1])
      && room !in RoomGuests(s.bookingHistory)
  {
    var room := s.roomTypes[option - 1].availableRoomNumbers[0];
    FreeRoomOwner(s, option - 1, room);
    assert TypeValid(s.roomTypes[option - 1]);
  }

  /** A room nobody holds is in neither the tree, the ledger nor any guest's list, and these
      have no empty entries. */
  lemma UnheldRoomAbsent(s: State, room: int, guest: string, date: string)
    requires Valid(s) && room !in RoomGuests(s.bookingHistory)
    ensures && SearchTree(s.occupied) && room !in Keys(s.occupied)
      && (forall d :: d in s.reservations ==> |s.reservations[d]| > 0)
      && room !in DayOf(s.reservations, date)
      && (forall g :: g in s.guestToRooms ==> |s.guestToRooms[g]| > 0)
      && room !in RoomsOf(s.guestToRooms, guest)
  {
    var h := s.bookingHistory;
    RoomGuestsKeys(h);
    LedgerRooms(h);
    GuestRoomsRooms(h);
  }

  lemma ReserveFacts(s: State, option: int, guest: string, date: string)
    requires Valid(s) && Bookable(s, option)
    ensures ReserveReady(s, option, guest, date)
  {
    FrontRoomFree(s, option);
    UnheldRoomAbsent(s, s.roomTypes[option - 1].availableRoomNumbers[0], guest, date);
  }

  /** Undo right after a `reserveRoom` that booked the front room gives back every index, given
      the facts about the room and the indexes that the invariant provides. */
  lemma UndoAfterReserve(s: State, option: int, guest: string, date: string, hour: int, nights: int)
    requires ReserveReady(s, option, guest, date)
    ensures var r := ReservedFront(s, option, guest, date, hour, nights);
      && |r.people| == |r.roomsnums|
      && Undone(r) == Rotated(s, option - 1).(totalRevenue := if s.totalRevenue < 0 then 0 else s.totalRevenue)
  {
    var rt := s.roomTypes[option - 1];
    var room := rt.availableRoomNumbers[0];
    UndoAfterReserveSteps(s, option, guest, date, hour, nights);
    UnrecordRecord(s.reservations, date, room, guest);
    UnassignAddRoom(s.guestToRooms, guest, room);
    RemoveInsertFresh(s.occupied, room);
    OccupyRelease(rt, guest);
  }

  /** A successful `reserveRoom` followed at once by undo restores every index, count and the
      undo stack; the revenue comes back when it was not negative (undo floors it at 0); the
      chosen type's free list comes back rotated: its front room is now at the back. */
  lemma ReserveUndoRoundTrip(s: State, option: int, guest: string, date: string, hour: int, nights: int)
    requires Valid(s) && Bookable(s, option)
    ensures var r := Reserved(s, option, guest, date, hour, nights);
      && |r.people| == |r.roomsnums|
      && Undone(r) == Rotated(s, option - 1).(totalRevenue := if s.totalRevenue < 0 then 0 else s.totalRevenue)
  {
    ReserveFacts(s, option, guest, date);
    ReservedIs(s, option, guest, date, hour, nights);
    UndoAfterReserve(s, option, guest, date, hour, nights);
  }

  /** The round trip up to free-list order, when the revenue was not negative. */
  lemma UndoAfterReserveSame(s: State, option: int, guest: string, date: string, hour: int, nights: int)
    requires ReserveReady(s, option, guest, date) && s.totalRevenue >= 0
    ensures var r := ReservedFront(s, option, guest, date, hour, nights);
      |r.people| == |r.roomsnums| && SameUpToFreeOrder(Undone(r), s)
  {
    UndoAfterReserve(s, option, guest, date, hour, nights);
    RotatedBackSame(s, ReservedFront(s, option, guest, date, hour, nights), option);
  }

  /** A state that undo turns into the rotation of `s` is, after undo, `s` up to free-list order. */
  lemma RotatedBackSame(s: State, r: State, option: int)
    requires Bookable(s, option) && s.totalRevenue >= 0 && |r.people| == |r.roomsnums|
    requires Undone(r) == Rotated(s, option - 1).(totalRevenue := if s.totalRevenue < 0 then 0 else s.totalRevenue)
    ensures SameUpToFreeOrder(Undone(r), s)
  {
    var rotated := Rotated(s, option - 1);
    RotatedSame(s, option - 1);
    assert rotated.(totalRevenue := s.totalRevenue) == rotated;
  }

  // ---------------------------------------------------------------- undo is last-in-first-out

  /** Two room types that differ at most in the order of their free lists. */
  predicate SameTypeUpToFreeOrder(x: RoomType, y: RoomType) {
    && x.name == y.name && x.totalRooms == y.totalRooms && x.availableRooms == y.availableRooms
    && x.pricePerNight == y.pricePerNight && x.roomRange == y.roomRange
    && x.guests == y.guests && x.allRoomNumbers == y.allRoomNumbers
    && multiset(x.availableRoomNumbers) == multiset(y.availableRoomNumbers)
  }

  /** Two states that differ at most in the order of the types' free lists. */
  predicate SameUpToFreeOrder(a: State, b: State) {
    && a.totalRevenue == b.totalRevenue && a.people == b.people && a.roomsnums == b.roomsnums
    && a.reservationsForDay == b.reservationsForDay && a.reservations == b.reservations
    && a.guestToRooms == b.guestToRooms && a.guestHistory == b.guestHistory
    && a.occupied == b.occupied && a.bookingHistory == b.bookingHistory
    && |a.roomTypes| == |b.roomTypes|
    && forall t :: 0 <= t < |a.roomTypes| ==> SameTypeUpToFreeOrder(a.roomTypes[t], b.roomTypes[t])
  }

  lemma SameUpToFreeOrderTrans(a: State, b: State, c: State)
    requires SameUpToFreeOrder(a, b) && SameUpToFreeOrder(b, c)
    ensures SameUpToFreeOrder(a, c)
  {
  }

  /** Freeing a room treats two types that differ only in free-list order alike. */
  lemma ReleaseIgnoresFreeOrder(x: RoomType, y: RoomType, room: int)
    requires SameTypeUpToFreeOrder(x, y)
    ensures SameTypeUpToFreeOrder(Release(x, room), Release(y, room))
  {
    assert room in x.availableRoomNumbers <==> room in multiset(x.availableRoomNumbers);
    assert room in y.availableRoomNumbers <==> room in multiset(y.availableRoomNumbers);
  }

  /** Undo cannot tell apart states whose free lists differ only in order. */
  lemma UndoneIgnoresFreeOrder(a: State, b: State)
    requires SameUpToFreeOrder(a, b) && |a.people| == |a.roomsnums|
    ensures SameUpToFreeOrder(Undone(a), Undone(b))
  {
    if |a.bookingHistory| > 0 {
      var room := a.bookingHistory[|a.bookingHistory| - 1].roomNumber;
      OwningTypeIndexSame(a.roomTypes, b.roomTypes, room);
      var t := OwningTypeIndex(a.roomTypes, room);
      if t < |a.roomTypes| {
        var ta, tb := Undone(a).roomTypes, Undone(b).roomTypes;
        assert ta == a.roomTypes[t := Release(a.roomTypes[t], room)];
        assert tb == b.roomTypes[t := Release(b.roomTypes[t], room)];
        ReleaseIgnoresFreeOrder(a.roomTypes[t], b.roomTypes[t], room);
        forall u | 0 <= u < |ta| ensures SameTypeUpToFreeOrder(ta[u], tb[u]) {
          if u != t {
            assert ta[u] == a.roomTypes[u] && tb[u] == b.roomTypes[u];
          }
        }
      }
    }
  }

  /** Moving a free list's front room to its back changes only the order. */
  lemma RotatedSame(s: State, t: nat)
    requires t < |s.roomTypes| && |s.roomTypes[t].availableRoomNumbers| > 0
    ensures SameUpToFreeOrder(Rotated(s, t), s)
  {
    var avail := s.roomTypes[t].availableRoomNumbers;
    assert avail == [avail[0]] + avail[1..];
    assert multiset(avail[1..] + [avail[0]]) == multiset(avail);
  }

  /** `reserveRoom` keeps the parallel vectors the same length. */
  lemma ReservedLengths(s: State, option: int, guest: string, date: string, hour: int, nights: int)
    requires |s.people| == |s.roomsnums|
    ensures var r := Reserved(s, option, guest, date, hour, nights); |r.people| == |r.roomsnums|
  {
  }

  /** A bookable `reserveRoom` undone at once gives back the state up to free-list order, when
      the revenue was not negative. */
  lemma ReserveUndoSame(s: State, option: int, guest: string, date: string, hour: int, nights: int)
    requires Valid(s) && Bookable(s, option) && s.totalRevenue >= 0
    ensures var r := Reserved(s, option, guest, date, hour, nights);
      |r.people| == |r.roomsnums| && SameUpToFreeOrder(Undone(r), s)
  {
    ReserveFacts(s, option, guest, date);
    ReservedIs(s, option, guest, date, hour, nights);
    UndoAfterReserveSame(s, option, guest, date, hour, nights);
  }

  /** Two reservations followed by two undos reverse them newest first: the first undo gives
      back the state after the first reservation and the second gives back the starting state,
      each up to the order of the free lists. The revenue is restored when it started
      non-negative and the first booking's cost is not negative. */
  lemma UndoIsLastInFirstOut(s: State, s1: State, s2: State,
                             option1: int, guest1: string, date1: string, hour1: int, nights1: int,
                             option2: int, guest2: string, date2: string, hour2: int, nights2: int)
    requires Valid(s) && Bookable(s, option1) && s1 == Reserved(s, option1, guest1, date1, hour1, nights1)
    requires Bookable(s1, option2) && s2 == Reserved(s1, option2, guest2, date2, hour2, nights2)
    requires s.totalRevenue >= 0 && s.roomTypes[option1 - 1].pricePerNight * nights1 >= 0
    ensures |s2.people| == |s2.roomsnums|
    ensures SameUpToFreeOrder(Undone(s2), s1) && SameUpToFreeOrder(Undone(Undone(s2)), s)
  {
    ReserveRevenue(s, option1, guest1, date1, hour1, nights1);
    ReservedValid(s, option1, guest1, date1, hour1, nights1);
    ReserveUndoSame(s1, option2, guest2, date2, hour2, nights2);
    ReserveUndoSame(s, option1, guest1, date1, hour1, nights1);
    UndoneIgnoresFreeOrder(Undone(s2), s1);
    SameUpToFreeOrderTrans(Undone(Undone(s2)), Undone(s1), s);
  }
}

=== FILE: sequences.dfy ===
/** Searches and edits on sequences, the counterparts of std::find, the backward
    index loops and std::remove that the booking engine applies to its vectors and lists. */
module Sequences {

  /** The elements of `s`, as a set. */
  function Elems<T>(s: seq<T>): set<T> {
    set x | x in s
  }

  /** No element of `s` occurs twice. */
  predicate NoDup<T(==)>(s: seq<T>) {
    forall i, j :: 0 <= i < j < |s| ==> s[i] != s[j]
  }

  /** The position std::find reports: the first index holding `x`, or |s| (the end) when there is none. */
  function IndexOf<T(==)>(s: seq<T>, x: T): (i: nat)
    ensures i <= |s|
    ensures i < |s| ==> s[i] == x
    ensures forall j :: 0 <= j < i ==> s[j] != x
  {
    if |s| == 0 then 0
    else if s[0] == x then 0
    else 1 + IndexOf(s[1..], x)
  }

  /** The position a backward search finds: the last index holding `x`, or -1 when there is none. */
  function LastIndexOf<T(==)>(s: seq<T>, x: T): (i: int)
    ensures -1 <= i < |s|
    ensures 0 <= i ==> s[i] == x
    ensures forall j :: i < j < |s| ==> s[j] != x
  {
    if |s| == 0 then -1
    else if s[|s| - 1] == x then |s| - 1
    else LastIndexOf(s[..|s| - 1], x)
  }

  /** `s` with the element at index `i` erased (vector::erase, list::erase). */
  function RemoveAt<T>(s: seq<T>, i: nat): (r: seq<T>)
    requires i < |s|
    ensures |r| == |s| - 1
    ensures forall j :: 0 <= j < i ==> r[j] == s[j]
    ensures forall j :: i <= j < |r| ==> r[j] == s[j + 1]
  {
    s[..i] + s[i + 1..]
  }

  /** `s` with the element at `i` erased, or `s` itself when the search found nothing (`i` is -1). */
  function EraseFound<T>(s: seq<T>, i: int): (r: seq<T>)
    requires i < |s|
  {
    if i < 0 then s else RemoveAt(s, i)
  }

  /** `s` with every occurrence of `x` taken out, the rest in order (the erase-remove idiom). */
  function RemoveAll<T(==)>(s: seq<T>, x: T): (r: seq<T>)
    ensures Elems(r) == Elems(s) - {x}
    ensures |r| <= |s|
  {
    if |s| == 0 then []
    else
      assert Elems(s) == {s[0]} + Elems(s[1..]) by { assert s == [s[0]] + s[1..]; }
      if s[0] == x then RemoveAll(s[1..], x)
      else
        var rest := RemoveAll(s[1..], x);
        ElemsConcat([s[0]], rest);
        [s[0]] + rest
  }

  lemma ElemsConcat<T>(a: seq<T>, b: seq<T>)
    ensures Elems(a + b) == Elems(a) + Elems(b)
  {
  }

  lemma {:induction false} RemoveAllAbsent<T>(s: seq<T>, x: T)
    requires x !in s
    ensures RemoveAll(s, x) == s
  {
    if |s| > 0 {
      RemoveAllAbsent(s[1..], x);
    }
  }

  lemma {:induction false} RemoveAllAppended<T>(s: seq<T>, x: T)
    requires x !in s
    ensures RemoveAll(s + [x], x) == s
  {
    if |s| == 0 {
    } else {
      assert (s + [x])[1..] == s[1..] + [x];
      RemoveAllAppended(s[1..], x);
    }
  }

  lemma ElemsAppend<T>(s: seq<T>, x: T)
    ensures Elems(s + [x]) == Elems(s) + {x}
  {
  }

  lemma NoDupRemoveAt<T>(s: seq<T>, i: nat)
    requires i < |s| && NoDup(s)
    ensures NoDup(RemoveAt(s, i))
    ensures Elems(RemoveAt(s, i)) == Elems(s) - {s[i]}
  {
    var r := RemoveAt(s, i);
    forall y | y in Elems(s) - {s[i]} ensures y in Elems(r) {
      var k :| 0 <= k < |s| && s[k] == y;
      if k < i { assert r[k] == y; } else { assert r[k - 1] == y; }
    }
  }

  lemma NoDupAppend<T>(s: seq<T>, x: T)
    requires NoDup(s) && x !in s
    ensures NoDup(s + [x])
  {
  }

  /** A list without duplicates has as many distinct elements as entries. */
  lemma {:induction false} NoDupCard<T>(s: seq<T>)
    requires NoDup(s)
    ensures |Elems(s)| == |s|
  {
    if |s| > 0 {
      var p, x := s[..|s| - 1], s[|s| - 1];
      assert s == p + [x];
      assert x !in Elems(p) by {
        forall k | 0 <= k < |p| ensures p[k] != x {
          assert s[k] == p[k];
        }
      }
      NoDupCard(p);
      ElemsAppend(p, x);
    }
  }
}

=== FILE: text.dfy ===
/** Line-level text handling of the record files: `Hotel::split` (a getline loop over a
    stringstream), the partial number parses std::stoi / std::stod, and number printing. */
module Text {
  import opened Wrappers
  import opened Sequences

  // ---------------------------------------------------------------- splitting

  /** The items that successive `getline(ss, item, delim)` calls yield on `s` before one fails:
      each call takes the text up to the next delimiter and consumes that delimiter; a call that
      starts at the end of the text fails, so a trailing delimiter yields no empty last item. */
  function Pieces(s: string, delim: char): (r: seq<string>)
    ensures forall k :: 0 <= k < |r| ==> delim !in r[k]
    ensures s == "" <==> r == []
    decreases |s|
  {
    if |s| == 0 then []
    else
      var i := IndexOf(s, delim);
      if i == |s| then [s]
      else [s[..i]] + Pieces(s[i + 1..], delim)
  }

  /** The fields joined with the delimiter between them: how a saved record line is written. */
  function Join(fields: seq<string>, delim: char): string {
    if |fields| == 0 then ""
    else if |fields| == 1 then fields[0]
    else fields[0] + [delim] + Join(fields[1..], delim)
  }

  lemma IndexOfAfterItem(item: string, rest: string, delim: char)
    requires delim !in item
    ensures IndexOf(item + [delim] + rest, delim) == |item|
  {
    var s := item + [delim] + rest;
    var i := IndexOf(s, delim);
    assert s[|item|] == delim;
  }

  /** Reading one delimited item from the front: it yields `item` and continues after the delimiter. */
  lemma PiecesAfterItem(item: string, rest: string, delim: char)
    requires delim !in item
    ensures Pieces(item + [delim] + rest, delim) == [item] + Pieces(rest, delim)
  {
    var s := item + [delim] + rest;
    IndexOfAfterItem(item, rest, delim);
    assert s[..|item|] == item;
    assert s[|item| + 1..] == rest;
  }

  /** A text without the delimiter is one item, or none when it is empty. */
  lemma PiecesOfItem(item: string, delim: char)
    requires delim !in item
    ensures Pieces(item, delim) == if item == "" then [] else [item]
  {
  }

  /** Splitting a joined line gives back its fields, provided no field holds the delimiter and
      the last field is not empty (an empty last field vanishes, as getline yields nothing for it). */
  lemma {:induction false} PiecesOfJoin(fields: seq<string>, delim: char)
    requires forall k :: 0 <= k < |fields| ==> delim !in fields[k]
    requires |fields| > 0 ==> fields[|fields| - 1] != ""
    ensures Pieces(Join(fields, delim), delim) == fields
  {
    if |fields| == 0 {
    } else if |fields| == 1 {
      PiecesOfItem(fields[0], delim);
    } else {
      PiecesAfterItem(fields[0], Join(fields[1..], delim), delim);
      PiecesOfJoin(fields[1..], delim);
      assert [fields[0]] + fields[1..] == fields;
    }
  }

  /** Splitting a line that carries an extra delimiter inside field 1 yields one field more:
      the field is cut in two at that delimiter, and every later field moves up by one. */
  lemma JoinSplitsField(first: string, left: string, right: string, rest: seq<string>, delim: char)
    ensures Join([first, left + [delim] + right] + rest, delim) == Join([first, left, right] + rest, delim)
  {
    var a := [first, left + [delim] + right] + rest;
    var b := [first, left, right] + rest;
    assert a[1..] == [left + [delim] + right] + rest;
    assert b[1..] == [left, right] + rest;
    assert b[1..][1..] == [right] + rest;
    if |rest| == 0 {
      assert Join(a[1..], delim) == left + [delim] + right;
      assert Join(b[1..], delim) == left + [delim] + Join([right], delim);
    } else {
      assert a[1..][1..] == rest;
      assert Join(a[1..], delim) == left + [delim] + right + [delim] + Join(rest, delim);
      assert Join(b[1..][1..], delim) == right + [delim] + Join(rest, delim);
    }
  }

  /** One step of the getline loop at a delimiter: the pending item is complete. */
  lemma PiecesAtDelimiter(s: string, i: nat, item: string, delim: char)
    requires i < |s| && s[i] == delim && delim !in item
    ensures Pieces(item + s[i..], delim) == [item] + Pieces("" + s[i + 1..], delim)
  {
    assert item + s[i..] == item + [delim] + s[i + 1..];
    assert "" + s[i + 1..] == s[i + 1..];
    PiecesAfterItem(item, s[i + 1..], delim);
  }

  /** One step of the getline loop at any other character: it joins the pending item. */
  lemma PiecesAtCharacter(s: string, i: nat, item: string, delim: char)
    requires i < |s|
    ensures Pieces(item + s[i..], delim) == Pieces((item + [s[i]]) + s[i + 1..], delim)
  {
    assert item + s[i..] == (item + [s[i]]) + s[i + 1..];
  }

  /** `Hotel::split`: reads `s` item by item up to each delimiter, as the getline loop does. */
  method Split(s: string, delim: char) returns (result: seq<string>)
    ensures result == Pieces(s, delim)
  {
    result := [];
    var item := "";
    var i := 0;
    assert item + s[i..] == s;
    while i < |s|
      invariant 0 <= i <= |s|
      invariant delim !in item
      invariant Pieces(s, delim) == result + Pieces(item + s[i..], delim)
    {
      if s[i] == delim {
        PiecesAtDelimiter(s, i, item, delim);
        result := result + [item];
        item := "";
      } else {
        PiecesAtCharacter(s, i, item, delim);
        item := item + [s[i]];
      }
      i := i + 1;
    }
    assert item + s[i..] == item;
    PiecesOfItem(item, delim);
    if item != "" {
      result := result + [item];
    }
  }

  // ---------------------------------------------------------------- numbers

  const IntMin: int := -0x8000_0000
  const IntMax: int := 0x7FFF_FFFF

  predicate IsDigit(c: char) {
    '0' <= c <= '9'
  }

  /** The white-space characters strtol skips: space, \t, \n, \v, \f and \r. */
  predicate IsSpace(c: char) {
    c == ' ' || c == '\t' || c == '\n' || c == '\r' || c as int == 11 || c as int == 12
  }

  function SkipSpaces(s: string): (r: string)
    ensures |r| <= |s| && r == s[|s| - |r|..]
    ensures |r| > 0 ==> !IsSpace(r[0])
  {
    if |s| > 0 && IsSpace(s[0]) then SkipSpaces(s[1..]) else s
  }

  /** The length of the longest run of decimal digits at the front of `s`. */
  function DigitRun(s: string): (k: nat)
    ensures k <= |s|
    ensures forall j :: 0 <= j < k ==> IsDigit(s[j])
    ensures k < |s| ==> !IsDigit(s[k])
  {
    if |s| > 0 && IsDigit(s[0]) then 1 + DigitRun(s[1..]) else 0
  }

  /** The value of a string of decimal digits. */
  function DigitsValue(d: string): nat
    requires forall j :: 0 <= j < |d| ==> IsDigit(d[j])
  {
    if |d| == 0 then 0
    else
      assert IsDigit(d[|d| - 1]);
      DigitsValue(d[..|d| - 1]) * 10 + (d[|d| - 1] as int - '0' as int)
  }

  /** What strtol reads from the front of `s`: white space, an optional sign and at least one
      digit, the value of the digits read; anything after them is ignored. None when no digit comes. */
  function LeadingInteger(s: string): Option<int> {
    var t := SkipSpaces(s);
    var signed := |t| > 0 && (t[0] == '-' || t[0] == '+');
    var u := if signed then t[1..] else t;
    var k := DigitRun(u);
    var magnitude: int := DigitsValue(u[..k]);
    if k == 0 then None
    else if signed && t[0] == '-' then Some(-magnitude)
    else Some(magnitude)
  }

  /** std::stoi: the leading integer, failing (an exception in the source) when there is none
      or when it does not fit a 32-bit int. */
  function Stoi(s: string): (r: Option<int>)
    ensures r.Some? ==> IntMin <= r.value <= IntMax
  {
    match LeadingInteger(s)
    case Some(v) => if IntMin <= v <= IntMax then Some(v) else None
    case None => None
  }

  /** A non-empty string of decimal digits is read as its value when that fits in 32 bits, and
      is rejected when it does not. */
  lemma StoiOfDigits(s: string)
    requires |s| > 0 && forall j :: 0 <= j < |s| ==> IsDigit(s[j])
    ensures DigitsValue(s) <= IntMax ==> Stoi(s) == Some(DigitsValue(s))
    ensures DigitsValue(s) > IntMax ==> Stoi(s) == None
  {
    assert !IsSpace(s[0]);
    assert SkipSpaces(s) == s;
    var k := DigitRun(s);
    assert k == |s|;
    assert s[..k] == s;
  }

  /** std::stod on an amount of money, with money held as whole dollars: the leading integer,
      failing when there is none. A fraction or exponent after it is not read. */
  function Stod(s: string): Option<int> {
    LeadingInteger(s)
  }

  function DigitChar(d: nat): (c: char)
    requires d < 10
    ensures IsDigit(c) && c as int - '0' as int == d
  {
    (('0' as int) + d) as char
  }

  /** The decimal digits of `n`, most significant first, without leading zeros. */
  function NatToString(n: nat): (r: string)
    ensures |r| > 0
    ensures forall j :: 0 <= j < |r| ==> IsDigit(r[j])
  {
    if n < 10 then [DigitChar(n)] else NatToString(n / 10) + [DigitChar(n % 10)]
  }

  /** How an int (and a whole-dollar amount) is written to a record file: an optional minus
      sign and the digits. */
  function IntToString(n: int): (r: string)
    ensures |r| > 0
    ensures forall j :: 0 <= j < |r| ==> IsDigit(r[j]) || r[j] == '-'
  {
    if n < 0 then "-" + NatToString(-n) else NatToString(n)
  }

  lemma {:induction false} DigitsValueOfNatToString(n: nat)
    ensures DigitsValue(NatToString(n)) == n
  {
    if n >= 10 {
      var d := NatToString(n / 10) + [DigitChar(n % 10)];
      assert d[..|d| - 1] == NatToString(n / 10);
      DigitsValueOfNatToString(n / 10);
    }
  }

  /** Reading back a written number gives the number: the integer parse undoes IntToString. */
  lemma LeadingIntegerOfIntToString(n: int)
    ensures LeadingInteger(IntToString(n)) == Some(n)
  {
    var s := IntToString(n);
    var m: nat := if n < 0 then -n else n;
    var digits := NatToString(m);
    assert SkipSpaces(s) == s;
    var u := if n < 0 then s[1..] else s;
    assert u == digits;
    assert DigitRun(u) == |u|;
    assert u[..|u|] == u;
    DigitsValueOfNatToString(m);
  }

  /** std::stoi reads back every written 32-bit int. */
  lemma StoiOfIntToString(n: int)
    requires IntMin <= n <= IntMax
    ensures Stoi(IntToString(n)) == Some(n)
  {
    LeadingIntegerOfIntToString(n);
  }

  /** std::stod reads back every written whole-dollar amount. */
  lemma StodOfIntToString(n: int)
    ensures Stod(IntToString(n)) == Some(n)
  {
    LeadingIntegerOfIntToString(n);
  }
}

=== FILE: wrappers.dfy ===
/** Optional values: the model's stand-in for "not found", a failed parse and a missing file. */
module Wrappers {

  datatype Option<+T> = None | Some(value: T) {

    /** The wrapped value, or `default` when there is none. */
    function GetOr(default: T): T {
      match this
      case Some(v) => v
      case None => default
    }
  }
}
